=== FILE: README.md ===
# Browser quiz: a verified model of its core rules

This project models the pure rules inside the browser quiz and its two serverless endpoints. The rest of the code is DOM, fetch and Redis plumbing.

- **CSV reader (`Csv`).** quiz.js and script.js read a question bank line by line. Each line goes through the same character-by-character tokenizer: quiz.js:19-35 and script.js:18-35 are the same code. The reader then keeps the lines that have enough fields, under three column layouts:
  - an 8-column multiple-choice layout (quiz.js `parseMcqCSV`);
  - a 3-column free-text layout (quiz.js `parseBiochemOpenCSV`);
  - a 9-column multiple-choice layout with an ignored topic column (script.js `parseCSV`).

  The tokenizer is `Scan`, a recursive function over the rest of the line, the quote state and the field being built. The three parsers are loops over the data lines, proved equal to a functional definition.
- **Sampler (`Sampler`).** `getRandomQuestions` is a Fisher–Yates shuffle of a copy of the pool followed by a prefix take. It is identical in quiz.js:101-108 and script.js:56-64. `Math.random` becomes a supplied sequence of draws, with `draws[i] <= i`.
- **Answer normaliser and matcher (`Answers`).** `normalizeAnswer` trims, lower-cases, removes whitespace around commas and collapses whitespace runs. `getCorrectVariants` splits an accepted-answer cell on `/\s+or\s+/i`, normalizes each part and drops empty parts. An open-text answer is right when its normalization is one of the variants.
- **Grader (`Grader`).** `checkAnswers` is all-or-nothing: it refuses when any card is unanswered, and otherwise counts the right cards. It is modelled for quiz.js (multiple-choice and free-text cards) and for script.js (multiple-choice only). A page is also modelled as a small state machine that locks after a successful check.
- **Page load (`Loader`).** script.js loads its page by fetching, parsing, refusing an empty bank, and showing `min(25, n)` questions.
- **Token gate (`TokenGate`).** `handler` in api/check-token.js binds an access token to the network address of its first user. It is modelled as a step function over a key-value map.
- **CSV endpoint (`CsvStore`).** api/csv.js derives a store key from the `file` query parameter and serves the stored text.

The files are `wrappers.dfy` (Option/Result), `text.dfy` (whitespace, ASCII lower-casing, trim), `csv.dfy`, `sampler.dfy`, `answers.dfy`, `grader.dfy`, `loader.dfy`, `token_gate.dfy` and `csv_store.dfy`.

Two conventions hold throughout:
- Whitespace is the ASCII class `[ \t\n\v\f\r]`, and lower-casing is ASCII only.
- A record's `id` is kept as its raw first field.

Behaviour of the code a reader might not expect:
- A refused check tells the user to answer every question, but does not say how many are missing (quiz.js:228-231, script.js:119-122).
- A token with no binding is accepted as a first use, never rejected (api/check-token.js:27-31).
- A token bound elsewhere gets 403 and never 401 (api/check-token.js:33-38).
- The id column is not parsed as a number. The raw field is kept, because the id is only displayed.
- A doubled quote always stands for one quote, even where it would open and close a field. So `""` reads as one quote, and a field made of quotes only reads back from its quoted form with one quote too many (quiz.js:21-27).

## Model

| member | source | states |
|---|---|---|
| Text.Trim | quiz.js:112 | The trimmed string is empty exactly when the input is all whitespace. Otherwise it neither starts nor ends with whitespace. A string without edge whitespace is returned unchanged. |
| Text.TrimInfix | quiz.js:112 | The trimmed string is the part of the input that starts where the leading whitespace ends, and only whitespace follows it. With Text.Trim this fixes the result exactly. |
| Text.TrimAround | quiz.js:112 | Whitespace written around a text with no edge whitespace is exactly what trimming removes. |
| Text.Lower | quiz.js:113 | Lower-casing keeps the length, and each character becomes its ASCII lower-case form: no capital letter remains, and whitespace and commas stay what they were. |
| Text.ToLower | quiz.js:113 | A capital ASCII letter becomes the letter 32 code points later, its lower-case form. Every other character is kept as it is. |
| Text.LowerNoUpper | quiz.js:113 | The lower-cased string has no capital letter, so lower-casing it again changes nothing. |
| Text.LowerFixpoint | quiz.js:113 | Lower-casing a string that has no capital letters leaves it unchanged. |
| Csv.Lines | quiz.js:9 | Splitting on `\r?\n` gives at least one line, and no line contains a line feed. Csv.LinesJoin fixes the lines exactly. |
| Csv.LinesCount | quiz.js:9 | There is exactly one more line than there are line feeds in the text. |
| Csv.CrLfToLf | quiz.js:9 | The reference for what the split drops: each `\r\n` pair written as `\n`. It never lengthens the text and leaves text without carriage returns unchanged. |
| Csv.LinesJoin | quiz.js:9 | Joining the lines with `\n` gives the text with each `\r\n` pair written as `\n`. A lone `\r` stays inside its line. Since no line holds a line feed, this determines the lines. |
| Csv.LinesJoinRoundTrip | quiz.js:9 | For text without carriage returns, joining the lines back with `\n` restores the text. |
| Csv.Scan | quiz.js:19-35 | The character loop of the parsers, from a quote state and a partial field. A doubled quote appends one quote and keeps the state. A lone quote toggles the state. A comma outside quotes ends the field. Any other character joins the field. The final push means at least one field always comes back. |
| Csv.Tokenize | quiz.js:15-35 | The fields of one line: the scan starts outside quotes with an empty field. script.js:16-35 runs the same loop. At least one field comes back. |
| Csv.ScanCount | quiz.js:19-35 | From any quote state and partial field, the scanner returns one field more than the commas it meets outside quotes. |
| Csv.TokenizeFieldCount | quiz.js:19-35 | A line yields one field more than the number of commas the scanner meets outside quotes. |
| Csv.QuoteFreeFieldCount | quiz.js:28-30 | On a line without quotes, every comma separates two fields. |
| Csv.QuotePairKeepsState | quiz.js:21-24 | A doubled quote appends one quote to the field and leaves the quote state as it was, inside or outside quotes. |
| Csv.EmptyQuotedFieldIsQuote | quiz.js:21-27 | The field `""` reads as a single quote character, unlike RFC 4180. `a,"",b` reads as `a`, `"` and `b`. |
| Csv.ScanQuotedField | quiz.js:19-35 | A nonempty field that is not made of quotes only is read back from its quoted form, with inner quotes doubled, whatever commas it holds. This holds whether or not it needed quoting (`"abc"` reads as `abc`), as long as no quote follows the closing one. |
| Csv.ScanAllQuotes | quiz.js:21-27 | A nonempty field made of quotes only reads back from its quoted form with one quote too many. |
| Csv.ScanEncoded | quiz.js:19-35 | A recoverable field, as a CSV writer emits it (bare when it has no comma or quote, quoted otherwise), is read back exactly when a comma or the end of the line follows. Recoverable means empty or not made of quotes only. |
| Csv.EncodeRecovered | quiz.js:19-35 | A field alone on a line is read back from its encoding exactly when it is recoverable. |
| Csv.LoneQuoteMisread | quiz.js:21-27 | A field holding one quote is written `""""` and read back as two quotes, unlike RFC 4180. |
| Csv.TokenizeRoundTrip | quiz.js:19-35 | Fields joined by commas, each written as a CSV writer would, tokenize back to exactly those fields when none is a nonempty run of quotes only. Csv.ScanAllQuotes shows why that case is excluded. |
| Csv.DataRows | quiz.js:9-14 | There is one row per line feed of the trimmed text, that is, one per line after the header line. Row k is the tokenization of line k + 1. |
| Csv.WideConcat | quiz.js:37 | Dropping short rows commutes with concatenation, so surviving rows keep their file order. |
| Csv.WideMembership | quiz.js:37 | A row survives exactly when it is one of the rows and has at least the required number of fields. |
| Csv.McqRecords | quiz.js:37-52 | There is one record per row with at least 8 fields (9 with a topic column), in row order, built from those fields. |
| Csv.OpenRecords | quiz.js:88-94 | There is one open-text record per row with at least 3 fields, in row order. |
| Csv.ParseMcq | quiz.js:8-56 | The loop returns no records for fewer than two lines. Otherwise it returns exactly the records of the wide-enough data lines. Options A–E are trimmed fields 2–6 and the answer is trimmed field 7. |
| Csv.ParseOpen | quiz.js:58-98 | The loop returns the open-text records: the question is trimmed field 1, the answer is trimmed field 2, and extra columns are ignored. |
| Csv.ParseTopicMcq | script.js:6-52 | Lines need 9 fields. Options A–E are trimmed fields 3–7 and the answer is trimmed field 8. There is one record per 9-field data line, in order. |
| Csv.TopicIgnored | script.js:40-48 | Changing the topic column does not change the record. |
| Sampler.Swap | quiz.js:105 | The swap exchanges the two positions, keeps every other position and keeps the multiset. |
| Sampler.Shuffle | quiz.js:102-106 | The shuffled copy is a permutation of the pool. With the identity draws it is the pool itself. The draws drive the swaps: the last position ends up holding the element the last draw picked, and a two-element pool whose draw is 0 comes back swapped. |
| Sampler.GetRandomQuestions | quiz.js:101-108 | The selection has length the smaller of `count` and the pool size and is a prefix of a permutation of the pool. So it is a sub-multiset of the pool, and it has no repeats when the pool has none. |
| Sampler.SubMultisetDistinct | quiz.js:107 | A selection that is a sub-multiset of a repeat-free pool has no repeats. |
| Answers.TightenCommas | quiz.js:114 | The rewrite empties only the empty string. A first character that is neither whitespace nor a comma is kept first, and a leading comma stays first. |
| Answers.TightenNoSpaceByComma | quiz.js:114 | After `replace(/\s*,\s*/g, ',')` no whitespace stands beside a comma. |
| Answers.TightenNoUpper | quiz.js:114 | Tightening commas adds no capital letter. |
| Answers.TightenLast | quiz.js:114 | Tightening keeps a non-blank last character non-blank. |
| Answers.TightenConcat | quiz.js:114 | The comma rewrite works piece by piece: cutting the input after a character that is neither whitespace nor a comma and rewriting the two sides separately gives the same result. |
| Answers.TightenCommaRun | quiz.js:114 | A comma with any whitespace before and after it becomes a bare comma, and the text after it is rewritten on its own. |
| Answers.TightenKeepsRun | quiz.js:114 | A whitespace run that does not end at a comma is kept exactly as written. |
| Answers.TightenAround | quiz.js:114 | A comma with whitespace on either side, between two texts, becomes a bare comma, and each text is rewritten on its own. Whitespace is removed only next to that comma. |
| Answers.TightenKeepsSpaceAround | quiz.js:114 | Whitespace between two words, away from any comma, passes through the comma rewrite unchanged. |
| Answers.CollapseSpaces | quiz.js:115 | The rewrite empties only the empty string. It starts with whitespace exactly when the input does, and a non-space first character is kept. |
| Answers.CollapseBlanks | quiz.js:115 | After `replace(/\s+/g, ' ')` every whitespace character is a plain space and no two are adjacent. |
| Answers.CollapseLast | quiz.js:115 | Collapsing keeps a non-blank last character. |
| Answers.CollapseNoUpper | quiz.js:115 | Collapsing adds no capital letter. |
| Answers.CollapseNoSpaceByComma | quiz.js:115 | Collapsing puts no whitespace beside a comma that had none. |
| Answers.CollapseConcat | quiz.js:115 | The whitespace rewrite works piece by piece: cutting the input after a non-space and rewriting the two sides separately gives the same result. |
| Answers.CollapseRun | quiz.js:115 | A whole whitespace run becomes exactly one plain space, and the text after it is rewritten on its own. |
| Answers.CollapseAround | quiz.js:115 | A whitespace run between two non-space characters becomes one space, and each side is rewritten on its own. The text around the run is kept. |
| Answers.Normalize | quiz.js:110-116 | The normalized answer is empty exactly when the input is blank. |
| Answers.NormalizeIsNormal | quiz.js:110-116 | Every output of `normalizeAnswer` is canonical: lower-case, no edge whitespace, single plain spaces only, and no whitespace beside a comma. |
| Answers.NormalizeAroundComma | quiz.js:110-116 | Two nonempty canonical answers, the first not ending in a comma, joined by a comma with any whitespace around it, normalize to the two joined by a bare comma. So "1, 2,3" gives "1,2,3". |
| Answers.NormalizeAroundSpace | quiz.js:110-116 | Two nonempty canonical answers joined by any whitespace run, with no comma on either side of the run, normalize to the two joined by one space. So "New \t York" gives "new york". |
| Answers.TightenFixpoint | quiz.js:114 | A string with no whitespace beside a comma is left unchanged by the comma rewrite. |
| Answers.CollapseFixpoint | quiz.js:115 | A string with single plain spaces only is left unchanged by the whitespace rewrite. |
| Answers.NormalFixpoint | quiz.js:110-116 | A canonical string is its own normalization. |
| Answers.NormalizeIdempotent | quiz.js:110-116 | Normalizing twice is the same as normalizing once. |
| Answers.SeparatorAt | quiz.js:121 | A match of `/\s+or\s+/i` starts with whitespace and is at least four characters long. |
| Answers.SeparatorAtMatches | quiz.js:121 | A nonzero match is a whole separator (whitespace, "or" in any letter case, whitespace), and no whitespace follows it: both runs are greedy. |
| Answers.SeparatorMatch | quiz.js:121 | Conversely, a separator followed by the end or by a non-space is matched in full, whatever its whitespace and letter case. |
| Answers.SeparatorExamples | quiz.js:121 | `" or "` and `"\tOR  "` are separators. `" or"` and `"or "` are not, since each lacks one whitespace run. |
| Answers.SplitOr | quiz.js:121 | Splitting always gives at least one part. |
| Answers.SplitAfterSeparator | quiz.js:121 | A cell that starts with a whole separator, followed by a non-space or nothing, splits into an empty part and then the parts of the rest. |
| Answers.SplitJoinRoundTrip | quiz.js:121 | Alternatives joined by any separators matching `/\s+or\s+/i` (any whitespace runs, any letter case) split back into exactly those alternatives. This holds when none is empty, has edge whitespace or contains a free-standing "or". |
| Answers.KeepNormalized | quiz.js:122-123 | No more strings are kept than there are parts, and none of them is empty. |
| Answers.KeepNormalizedMembership | quiz.js:122-123 | A string is kept exactly when it is nonempty and is the normalization of some part. |
| Answers.Variants | quiz.js:119-124 | There are no more variants than parts, and none is empty. |
| Answers.VariantsNormal | quiz.js:119-124 | Every variant is in canonical form and is its own normalization. |
| Answers.Accepts | quiz.js:275 | A blank answer is never accepted. |
| Answers.AcceptsIff | quiz.js:270-275 | An answer is accepted exactly when it is not blank and its normalization equals the normalization of one of the cell's "or"-separated parts. |
| Answers.AcceptsNormalized | quiz.js:273-275 | Acceptance depends only on the normalization of the answer. |
| Answers.AcceptsJoined | quiz.js:119-124 | A cell written as canonical alternatives joined by "or" separators accepts exactly the answers that normalize to one of them. |
| Grader.Graded | quiz.js:217-222 | A card is graded, and counted in autoCount, exactly when its type is mcq or biochem-open. |
| Grader.Answered | quiz.js:219-224 | The first-pass test. A choice card needs a checked radio. A text card needs a textarea that is present and not blank after trimming. A card of another type never blocks the check. |
| Grader.Right | quiz.js:255-275 | The second-pass test. A choice card is right when the checked value equals the correct label (line 255). A text card is right when its textarea is present and the cell accepts its text (lines 270-275). `Grader.WrittenRightIff` ties the text case to the normalized variants. A card of another type is never right. |
| Grader.CountUnanswered | quiz.js:214-226 | The unanswered count is zero exactly when every card is answered: a checked radio on a choice card, non-blank text on a text card. |
| Grader.CountGraded | quiz.js:214-226 | The auto-graded count equals the number of cards exactly when every card is a choice or text card. |
| Grader.CountRight | quiz.js:255-256 | The right count never exceeds the graded count, and equals it exactly when every graded card is right. |
| Grader.CountRightCardinality | quiz.js:255-256 | The right count equals the size of the set of positions that hold a right card. |
| Grader.CheckAnswers | quiz.js:208-302 | The check refuses exactly when some card is unanswered. Otherwise the total is the graded-card count, the score is at most the total, the score is full exactly when every graded card is right, and the score is `CountRight`, the number of right cards (see Grader.CountRightCardinality). |
| Grader.FirstPass | quiz.js:214-226 | The loop counts the unanswered cards and the auto-graded cards. |
| Grader.SecondPass | quiz.js:234-286 | The loop counts the right cards: an exact label match, or an accepted text. |
| Grader.Grade | quiz.js:208-231 | The two-pass procedure, with its early refusal, gives the outcome of `CheckAnswers`. |
| Grader.RightIsAnswered | quiz.js:228-231 | Only answered, graded cards can be counted right. |
| Grader.WrittenRightIff | quiz.js:269-278 | A text card is right exactly when its text is not blank and normalizes like one of the cell's "or" parts. |
| Grader.CountPicked | script.js:111-116 | At most one per card, and one per card exactly when every card has a checked radio. |
| Grader.CountMatched | script.js:125-147 | No more matches than checked cards, and one per card exactly when every checked value equals its card's correct label. |
| Grader.CountMatchedCardinality | script.js:125-147 | The match count equals the size of the set of positions whose checked value equals the correct label. |
| Grader.CheckPicks | script.js:106-168 | The script.js check refuses exactly when some card has no checked radio. Otherwise the total is the number of cards, the score is at most that, the score is full exactly when every checked value equals its card's correct label, and the score is `CountMatched`, the number of such cards (see Grader.CountMatchedCardinality). |
| Grader.PicksAgree | script.js:125-166 | On multiple-choice cards the script.js check and the quiz.js check give the same outcome. |
| Grader.Step | quiz.js:298-301 | A locked page ignores every event. The page becomes locked exactly when a check on an unlocked page produces a score. |
| Grader.GradedIsFinal | script.js:157-171 | Once graded, a page never changes again, whatever the user does. |
| Grader.StepConsistent | quiz.js:288-301 | A displayed score is always the grade of the cards on the page, and one is displayed only once the page is locked. |
| Grader.RunConsistent | quiz.js:288-301 | Any sequence of events keeps the displayed score consistent with the cards. |
| Grader.RefusalChangesNothing | quiz.js:228-231 | A refused check leaves the page exactly as it was. |
| Loader.Bank | script.js:188 | The bank has one question per data line with at least nine fields. |
| Loader.LoadQuiz | script.js:176-200 | A response without `ok` gives the "Failed to load CSV file…" message. A rejected fetch or body read gives its own error message. An empty bank gives "No questions found in CSV.". A nonempty bank always loads, and the page then shows `min(25, n)` questions forming a prefix of a permutation of the bank. |
| TokenGate.FirstSegment | api/check-token.js:20 | `split(',')[0]` is the longest prefix without a comma. |
| TokenGate.Fallback | api/check-token.js:20 | A nonempty socket address is used as it is. A missing or empty one gives "unknown". |
| TokenGate.ClientIp | api/check-token.js:19-20 | An array header gives its first element, with no fallback. A string header gives its first comma-separated segment when that is nonempty. A missing header, or one whose first segment is empty, gives the fallback. The address is never empty unless it comes from an array. |
| TokenGate.ClientIpFirstHop | api/check-token.js:20 | A header written as a proxy list `first,rest`, or as a single `first` without commas, gives `first`, or the fallback when `first` is empty. |
| TokenGate.Handle | api/check-token.js:5-47 | See the bullets after this table. |
| TokenGate.RunStatuses | api/check-token.js:6-15 | In a run, a reply is 405 exactly for a non-POST request and 400 exactly for a POST without a usable token, whatever earlier requests did to the store. Every status is 200, 400, 403 or 405. |
| TokenGate.WriteOnce | api/check-token.js:25-31 | Once a key holds a nonempty address, no run of requests changes it. |
| TokenGate.FirstUserWins | api/check-token.js:33-42 | After a token is bound, a later valid request with it gets 403 from another address and 200 `firstUse: false` from the same address. |
| TokenGate.EmptyBindingIsRebound | api/check-token.js:27-31 | A token bound to an empty address (an array header with an empty first element) is bound again by its next user. |
| CsvStore.LastSegment | api/csv.js:19 | The file name is a suffix of the parameter, contains neither `/` nor `\`, and follows a separator unless it is the whole parameter. |
| CsvStore.LastSegmentAfterSeparator | api/csv.js:19 | Any directory part before a separator is ignored. |
| CsvStore.LastSegmentOfPlain | api/csv.js:19 | A name without separators is its own file name. |
| CsvStore.StripCsv | api/csv.js:20 | Exactly one trailing ".csv", in any letter case, is removed; a name without it is unchanged. |
| CsvStore.StripCsvAppended | api/csv.js:20 | Appending ".csv" in any letter case and then stripping gives the base back. |
| CsvStore.KeyFor | api/csv.js:19-21 | The key starts with "csv:" and the rest holds no path separator. |
| CsvStore.KeyForPlain | api/csv.js:19-21 | For a name without separators that does not end in ".csv", the name, the name plus ".csv" in any case, and any directory path to the latter all map to "csv:" + name. |
| CsvStore.DoubleSuffixExample | api/csv.js:20 | Only one ".csv" goes: "a.csv.csv" maps to "csv:a.csv". |
| CsvStore.Serve | api/csv.js:10-36 | See the bullets after this table. |

`TokenGate.Handle` states:
- A non-POST request gets 405 with `Allow: POST`, and the store is unchanged.
- A missing, empty or non-string token gets 400, and the store is unchanged.
- `firstUse: true` comes exactly when the request is valid and the key is unbound. The store then becomes the old store with `"token:" + token` bound to the client address, whatever form the header has. No other request changes the store.
- 403 comes exactly when the key is bound to another address.
- Every status is 200, 400, 403 or 405.

`CsvStore.Serve` states:
- A missing or empty `file` gives 400 "Missing ?file= parameter" and no lookup.
- A repeated parameter gives 500.
- Otherwise the key for the name is looked up. An absent or empty value gives 404 "No data found for key: " plus the key. Anything else gives 200 with `text/plain; charset=utf-8` and exactly the stored text.

## Left out

- login.js: its live part is DOM events, fetch, `localStorage` and `crypto.randomUUID`, with no rule beyond a trim-and-nonempty check.
- upload-csv.mjs: filesystem and Redis upload plumbing.
  - It filters `.csv` case-insensitively but strips the suffix case-sensitively.
  - So a file named "X.CSV" is stored under `csv:X.CSV`. `?file=X.CSV.csv` reaches that key, but `?file=X.CSV` looks up `csv:X` and misses it. This is noted, not modelled.
- Rendering and UI:
  - `renderMcqQuestions`, `renderBiochemOpenQuestions`, `renderQuestions` and `showScoreModal`;
  - CSS highlighting of right and wrong options, alerts and the modal;
  - event-listener wiring and page reload.

  The `Grader` module keeps only counts and outcomes, and the page lock stands for the disabled inputs and check button.
- quiz.js `initFiziologiyaQuiz` and `initBiokimyaQuiz`:
  - They are page wiring.
  - Their selection sizes (25, and 15 plus 10) are covered by `Sampler.GetRandomQuestions` for any count.
  - Only the script.js load is modelled end to end, as `Loader.LoadQuiz`.
- The score percentage (quiz.js:195) is a floating-point `Math.round` and is not modelled.
- `parseInt` on the id column (quiz.js:39, script.js:38) is not modelled. The id stays the raw field, because it is only displayed.
- Unicode: `trim`, `\s` and `toLowerCase` are modelled on ASCII.
  - Whitespace is space, tab, line feed, vertical tab, form feed and carriage return.
  - Only A–Z are lower-cased.
- `Math.random` is replaced by a sequence of draws with `draws[i] <= i`. Nothing is claimed about the distribution.
- Sampler.GetRandomQuestions: `count` is a natural number. A negative count is not modelled: `slice(0, count)` would then drop elements from the end.
- Redis, async/await and concurrency are not modelled. In particular, two concurrent first uses of one token can both be granted (the read-then-write race). Requests are modelled one after another over one map.
- Error paths:
  - The `catch` branch of api/check-token.js (500 "Server error") and a Redis failure in api/csv.js are not modelled.
  - In api/csv.js only the repeated-parameter case of the 500 reply is modelled.
- The automatic JSON decoding of values read from Upstash is not modelled. Stored values are plain strings.
- TokenGate.ClientIp: an `x-forwarded-for` array is taken to have at least one element. An empty array, whose element 0 is `undefined`, is not modelled.
- Answers.Normalize: its own contract states only emptiness. The canonical form of its result is stated by `Answers.NormalizeIsNormal`.
- Answers.TightenCommas: its own contract states only the first character. `Answers.TightenConcat`, `Answers.TightenAround` and `Answers.TightenKeepsSpaceAround` state what happens to each comma and each whitespace run.
- Answers.CollapseSpaces: its own contract states only the first character. `Answers.CollapseConcat` and `Answers.CollapseAround` state what happens to each whitespace run.
- Csv.Scan: its own contract states only that at least one field comes back. `Csv.ScanCount` and `Csv.TokenizeFieldCount` state how many fields come back. `Csv.QuotePairKeepsState`, `Csv.ScanQuotedField`, `Csv.EncodeRecovered` and `Csv.TokenizeRoundTrip` state which fields come back. A quantified ensures on the scanner itself made every parser proof too costly.
- Csv.Tokenize: its own contract states only that at least one field comes back. The lemmas named for `Csv.Scan` state the rest.
- Text.Trim: its own contract does not say where the result sits in the input. `Text.TrimInfix` states that, as a separate lemma so that the many proofs that use `Trim` stay small.
- Csv.Lines: its own contract states only that there is a line and that no line holds a line feed. `Csv.LinesJoin` and `Csv.LinesCount` state which lines they are.
- Answers.SeparatorAt: its own contract states only the shape of a match. `Answers.SeparatorAtMatches` and `Answers.SeparatorMatch` state the match exactly.
- Answers.SplitOr: its own contract states only that there is a part. `Answers.SplitJoinRoundTrip` and `Answers.SplitAfterSeparator` state which parts.
- Answers.Accepts: its own contract states only that a blank answer is refused. `Answers.AcceptsIff` states when an answer is accepted.
- TokenGate.Run: its own contract states only that there is one reply per request. `TokenGate.RunStatuses`, `TokenGate.WriteOnce` and `TokenGate.FirstUserWins` state what the replies and the store are.
- `Csv.McqOf` and `Csv.OpenOf` build a record from fields and need at least the layout's width of fields. The parsers only call them on rows that passed the width check, as the source does.

=== FILE: answers.dfy ===
/**
 * Free-text answers in quiz.js: `normalizeAnswer` puts a string in a canonical form,
 * `getCorrectVariants` splits an accepted-answer cell on the word "or", and an answer
 * is accepted when its canonical form equals one of the variants.
 */
module Answers {
  import opened Text

  // ---------------------------------------------------------------------------
  // The canonical form
  // ---------------------------------------------------------------------------

  /** Every whitespace character is a plain space. */
  predicate SpacesAreBlanks(t: string) {
    forall i :: 0 <= i < |t| ==> IsSpace(t[i]) ==> t[i] == ' '
  }

  /** No whitespace at either end. */
  predicate NoEdgeSpace(t: string) {
    t == [] || (!IsSpace(t[0]) && !IsSpace(t[|t| - 1]))
  }

  /** No two whitespace characters in a row. */
  ghost predicate NoDoubleSpace(t: string) {
    forall i, j :: 0 <= i < j < |t| && j == i + 1 ==> !(IsSpace(t[i]) && IsSpace(t[j]))
  }

  /** No whitespace directly before or after a comma. */
  ghost predicate NoSpaceByComma(t: string) {
    forall i, j :: 0 <= i < j < |t| && j == i + 1 ==> !(IsSpace(t[i]) && t[j] == ',') && !(t[i] == ',' && IsSpace(t[j]))
  }

  /** The canonical form of an answer, stated without reference to how it is computed. */
  ghost predicate IsNormal(t: string) {
    NoUpper(t) && NoEdgeSpace(t) && SpacesAreBlanks(t) && NoDoubleSpace(t) && NoSpaceByComma(t)
  }

  lemma CommaJoin(a: string, b: string)
    requires NoSpaceByComma(a) && NoSpaceByComma(b)
    requires a != [] && b != [] ==> !(IsSpace(a[|a| - 1]) && b[0] == ',') && !(a[|a| - 1] == ',' && IsSpace(b[0]))
    ensures NoSpaceByComma(a + b)
  {
    var t := a + b;
    forall i | 0 <= i < |t| - 1
      ensures !(IsSpace(t[i]) && t[i + 1] == ',') && !(t[i] == ',' && IsSpace(t[i + 1]))
    {
      if i < |a| - 1 {
        assert t[i] == a[i] && t[i + 1] == a[i + 1];
      } else if i >= |a| {
        assert t[i] == b[i - |a|] && t[i + 1] == b[i - |a| + 1];
      } else {
        assert t[i] == a[|a| - 1] && t[i + 1] == b[0];
      }
    }
  }

  lemma SpaceJoin(a: string, b: string)
    requires SpacesAreBlanks(a) && SpacesAreBlanks(b) && NoDoubleSpace(a) && NoDoubleSpace(b)
    requires a != [] && b != [] ==> !(IsSpace(a[|a| - 1]) && IsSpace(b[0]))
    ensures SpacesAreBlanks(a + b) && NoDoubleSpace(a + b)
  {
    var t := a + b;
    forall i | 0 <= i < |t| - 1
      ensures !(IsSpace(t[i]) && IsSpace(t[i + 1]))
    {
      if i < |a| - 1 {
        assert t[i] == a[i] && t[i + 1] == a[i + 1];
      } else if i >= |a| {
        assert t[i] == b[i - |a|] && t[i + 1] == b[i - |a| + 1];
      } else {
        assert t[i] == a[|a| - 1] && t[i + 1] == b[0];
      }
    }
  }

  lemma UpperJoin(a: string, b: string)
    requires NoUpper(a) && NoUpper(b)
    ensures NoUpper(a + b)
  {
  }

  lemma NoUpperSuffix(t: string, j: nat)
    requires j <= |t| && NoUpper(t)
    ensures NoUpper(t[j..])
  {
    assert forall i :: 0 <= i < |t| - j ==> t[j..][i] == t[i + j];
  }

  lemma NoUpperPrefix(t: string, j: nat)
    requires j <= |t| && NoUpper(t)
    ensures NoUpper(t[..j])
  {
    assert forall i :: 0 <= i < j ==> t[..j][i] == t[i];
  }

  lemma CommaSuffix(t: string, j: nat)
    requires j <= |t| && NoSpaceByComma(t)
    ensures NoSpaceByComma(t[j..])
  {
    var u := t[j..];
    forall i | 0 <= i < |u| - 1
      ensures !(IsSpace(u[i]) && u[i + 1] == ',') && !(u[i] == ',' && IsSpace(u[i + 1]))
    {
      assert u[i] == t[i + j] && u[i + 1] == t[i + j + 1];
    }
  }

  lemma CommaNeighbours(t: string, i: nat)
    requires NoSpaceByComma(t) && i + 1 < |t|
    ensures !(IsSpace(t[i]) && t[i + 1] == ',') && !(t[i] == ',' && IsSpace(t[i + 1]))
  {
  }

  /** Every property of the canonical form except edge whitespace carries over to suffixes. */
  lemma SuffixShape(t: string, j: nat)
    requires j <= |t|
    ensures NoUpper(t) ==> NoUpper(t[j..])
    ensures SpacesAreBlanks(t) ==> SpacesAreBlanks(t[j..])
    ensures NoDoubleSpace(t) ==> NoDoubleSpace(t[j..])
    ensures NoSpaceByComma(t) ==> NoSpaceByComma(t[j..])
  {
    var u := t[j..];
    assert forall i :: 0 <= i < |u| ==> u[i] == t[i + j];
    if NoDoubleSpace(t) {
      forall i | 0 <= i < |u| - 1 ensures !(IsSpace(u[i]) && IsSpace(u[i + 1])) {
        assert u[i] == t[i + j] && u[i + 1] == t[i + j + 1];
      }
    }
    if NoSpaceByComma(t) {
      forall i | 0 <= i < |u| - 1
        ensures !(IsSpace(u[i]) && u[i + 1] == ',') && !(u[i] == ',' && IsSpace(u[i + 1]))
      {
        assert u[i] == t[i + j] && u[i + 1] == t[i + j + 1];
      }
    }
  }

  /** The text after the comma at index `k`, without the whitespace that follows the comma. */
  function AfterComma(s: string, k: nat): (r: string)
    requires k < |s|
    ensures |r| < |s|
    ensures r == s[|s| - |r|..]
    ensures forall i :: k < i < |s| - |r| ==> IsSpace(s[i])
  {
    TrimStart(s[k + 1..])
  }

  /**
   * The global replace of whitespace-comma-whitespace by a comma: a comma together with
   * the whitespace around it becomes a bare comma. A whitespace run that does not end at
   * a comma is kept as it is.
   */
  function TightenCommas(s: string): (r: string)
    ensures r == [] <==> s == []
    ensures s != [] && !IsSpace(s[0]) && s[0] != ',' ==> r[0] == s[0]
    ensures s != [] && s[0] == ',' ==> r[0] == ','
    decreases |s|
  {
    if s == [] then []
    else
      var k := LeadingSpaces(s);
      if k < |s| && s[k] == ',' then [','] + TightenCommas(AfterComma(s, k))
      else if k > 0 then s[..k] + TightenCommas(s[k..])
      else [s[0]] + TightenCommas(s[1..])
  }

  lemma TightenAtComma(s: string, k: nat)
    requires k == LeadingSpaces(s) && k < |s| && s[k] == ','
    ensures TightenCommas(s) == [','] + TightenCommas(AfterComma(s, k))
  {
  }

  lemma TightenAtSpaces(s: string, k: nat)
    requires k == LeadingSpaces(s) && 0 < k && !(k < |s| && s[k] == ',')
    ensures TightenCommas(s) == s[..k] + TightenCommas(s[k..])
  {
  }

  lemma TightenAtOther(s: string)
    requires s != [] && LeadingSpaces(s) == 0 && s[0] != ','
    ensures TightenCommas(s) == [s[0]] + TightenCommas(s[1..])
  {
  }

  lemma NoUpperAfterComma(s: string, k: nat)
    requires NoUpper(s) && k < |s|
    ensures NoUpper(AfterComma(s, k))
  {
    NoUpperSuffix(s, |s| - |AfterComma(s, k)|);
  }

  /** Without whitespace after the comma, nothing is skipped. */
  lemma AfterCommaTight(s: string, k: nat)
    requires k < |s| && (k + 1 == |s| || !IsSpace(s[k + 1]))
    ensures AfterComma(s, k) == s[k + 1..]
  {
    var t := s[k + 1..];
    assert t == [] || t[0] == s[k + 1];
    assert LeadingSpaces(t) == 0;
  }

  /** The last character of a join is the last character of its second half. */
  lemma LastOfJoin(a: string, b: string)
    requires b != []
    ensures (a + b)[|a + b| - 1] == b[|b| - 1]
  {
  }

  /** Tightening leaves no whitespace beside a comma. */
  lemma {:induction false} TightenNoSpaceByComma(s: string)
    ensures NoSpaceByComma(TightenCommas(s))
    decreases |s|
  {
    if s != [] {
      var k := LeadingSpaces(s);
      if k < |s| && s[k] == ',' {
        TightenAtComma(s, k);
        TightenNoSpaceByCommaComma(s, k);
      } else if k > 0 {
        TightenAtSpaces(s, k);
        TightenNoSpaceByCommaSpaces(s, k);
      } else {
        TightenAtOther(s);
        TightenNoSpaceByCommaOther(s);
      }
    }
  }

  lemma {:induction false} TightenNoSpaceByCommaComma(s: string, k: nat)
    requires k < |s|
    ensures NoSpaceByComma([','] + TightenCommas(AfterComma(s, k)))
    decreases |s|, 0
  {
    var x := AfterComma(s, k);
    TightenNoSpaceByComma(x);
    CommaJoin([','], TightenCommas(x));
  }

  lemma {:induction false} TightenNoSpaceByCommaSpaces(s: string, k: nat)
    requires k == LeadingSpaces(s) && 0 < k && !(k < |s| && s[k] == ',')
    ensures NoSpaceByComma(s[..k] + TightenCommas(s[k..]))
    decreases |s|, 0
  {
    var x := s[k..];
    TightenNoSpaceByComma(x);
    assert NoSpaceByComma(s[..k]) by {
      assert forall i :: 0 <= i < k ==> IsSpace(s[..k][i]);
    }
    CommaJoin(s[..k], TightenCommas(x));
  }

  lemma {:induction false} TightenNoSpaceByCommaOther(s: string)
    requires s != [] && LeadingSpaces(s) == 0 && s[0] != ','
    ensures NoSpaceByComma([s[0]] + TightenCommas(s[1..]))
    decreases |s|, 0
  {
    TightenNoSpaceByComma(s[1..]);
    CommaJoin([s[0]], TightenCommas(s[1..]));
  }

  /** Tightening a string that ends in a non-blank character gives a string that ends in a non-blank character. */
  lemma {:induction false} TightenLast(s: string)
    ensures s != [] && !IsSpace(s[|s| - 1]) ==> !IsSpace(TightenCommas(s)[|TightenCommas(s)| - 1])
    decreases |s|
  {
    if s == [] || IsSpace(s[|s| - 1]) {
      return;
    }
    var k := LeadingSpaces(s);
    if k < |s| && s[k] == ',' {
      TightenAtComma(s, k);
      TightenLastComma(s, k);
    } else if k > 0 {
      TightenAtSpaces(s, k);
      TightenLastRest(s, k, s[..k]);
    } else {
      TightenAtOther(s);
      TightenLastRest(s, 1, [s[0]]);
    }
  }

  lemma {:induction false} TightenLastComma(s: string, k: nat)
    requires k < |s| && !IsSpace(s[|s| - 1])
    ensures !IsSpace(([','] + TightenCommas(AfterComma(s, k)))[|[','] + TightenCommas(AfterComma(s, k))| - 1])
    decreases |s|, 0
  {
    var x := AfterComma(s, k);
    if x != [] {
      TightenLast(x);
      LastOfJoin([','], TightenCommas(x));
    }
  }

  lemma {:induction false} TightenLastRest(s: string, j: nat, head: string)
    requires 0 < j <= |s| && !IsSpace(s[|s| - 1]) && head != []
    requires j == |s| ==> !IsSpace(head[|head| - 1])
    ensures !IsSpace((head + TightenCommas(s[j..]))[|head + TightenCommas(s[j..])| - 1])
    decreases |s|, 0
  {
    if j < |s| {
      TightenLast(s[j..]);
      LastOfJoin(head, TightenCommas(s[j..]));
    }
  }

  /** Tightening adds no capital letter. */
  lemma {:induction false} TightenNoUpper(s: string)
    requires NoUpper(s)
    ensures NoUpper(TightenCommas(s))
    decreases |s|
  {
    if s != [] {
      var k := LeadingSpaces(s);
      if k < |s| && s[k] == ',' {
        TightenAtComma(s, k);
        NoUpperAfterComma(s, k);
        TightenNoUpperRest([','], AfterComma(s, k));
      } else if k > 0 {
        TightenAtSpaces(s, k);
        NoUpperSuffix(s, k);
        NoUpperPrefix(s, k);
        TightenNoUpperRest(s[..k], s[k..]);
      } else {
        TightenAtOther(s);
        NoUpperSuffix(s, 1);
        TightenNoUpperRest([s[0]], s[1..]);
      }
    }
  }

  lemma {:induction false} TightenNoUpperRest(head: string, x: string)
    requires NoUpper(head) && NoUpper(x) && head != []
    ensures NoUpper(head + TightenCommas(x))
    decreases |head| + |x|, 0
  {
    TightenNoUpper(x);
    UpperJoin(head, TightenCommas(x));
  }

  /** The global replace of every whitespace run by one space. */
  function CollapseSpaces(s: string): (r: string)
    ensures r == [] <==> s == []
    ensures s != [] ==> (IsSpace(r[0]) <==> IsSpace(s[0]))
    ensures s != [] && !IsSpace(s[0]) ==> r[0] == s[0]
    decreases |s|
  {
    if s == [] then []
    else
      var k := LeadingSpaces(s);
      if k > 0 then " " + CollapseSpaces(s[k..])
      else [s[0]] + CollapseSpaces(s[1..])
  }

  /** Collapsing leaves single plain spaces only. */
  lemma {:induction false} CollapseBlanks(s: string)
    ensures SpacesAreBlanks(CollapseSpaces(s)) && NoDoubleSpace(CollapseSpaces(s))
    decreases |s|
  {
    if s != [] {
      var k := LeadingSpaces(s);
      var x := if k > 0 then s[k..] else s[1..];
      CollapseBlanks(x);
      if k > 0 {
        SpaceJoin(" ", CollapseSpaces(x));
      } else {
        SpaceJoin([s[0]], CollapseSpaces(x));
      }
    }
  }

  /** Collapsing keeps a non-blank last character. */
  lemma {:induction false} CollapseLast(s: string)
    ensures s != [] && !IsSpace(s[|s| - 1]) ==> CollapseSpaces(s)[|CollapseSpaces(s)| - 1] == s[|s| - 1]
    decreases |s|
  {
    if s != [] && !IsSpace(s[|s| - 1]) {
      var r := CollapseSpaces(s);
      var k := LeadingSpaces(s);
      var x := if k > 0 then s[k..] else s[1..];
      if x != [] {
        assert x[|x| - 1] == s[|s| - 1];
        CollapseLast(x);
        assert r[|r| - 1] == CollapseSpaces(x)[|CollapseSpaces(x)| - 1];
      }
    }
  }

  /** Collapsing adds no capital letter. */
  lemma {:induction false} CollapseNoUpper(s: string)
    requires NoUpper(s)
    ensures NoUpper(CollapseSpaces(s))
    decreases |s|
  {
    if s != [] {
      var k := LeadingSpaces(s);
      var j := if k > 0 then k else 1;
      SuffixShape(s, j);
      CollapseNoUpper(s[j..]);
    }
  }

  /** Collapsing puts no whitespace beside a comma that had none. */
  lemma {:induction false} CollapseNoSpaceByComma(s: string)
    requires NoSpaceByComma(s)
    ensures NoSpaceByComma(CollapseSpaces(s))
    decreases |s|
  {
    if s != [] {
      var k := LeadingSpaces(s);
      if k > 0 {
        var x := s[k..];
        SuffixShape(s, k);
        CollapseNoSpaceByComma(x);
        if x != [] {
          assert IsSpace(s[k - 1]) && s[k] == x[0];
        }
        CommaJoin(" ", CollapseSpaces(x));
      } else {
        var x := s[1..];
        SuffixShape(s, 1);
        CollapseNoSpaceByComma(x);
        if x != [] {
          assert s[1] == x[0];
        }
        CommaJoin([s[0]], CollapseSpaces(x));
      }
    }
  }

  // ---------------------------------------------------------------------------
  // What the two rewrites do to each piece of their input
  // ---------------------------------------------------------------------------

  lemma CollapseAtSpaces(s: string, k: nat)
    requires k == LeadingSpaces(s) && 0 < k
    ensures CollapseSpaces(s) == " " + CollapseSpaces(s[k..])
  {
  }

  lemma CollapseAtOther(s: string)
    requires s != [] && LeadingSpaces(s) == 0
    ensures CollapseSpaces(s) == [s[0]] + CollapseSpaces(s[1..])
  {
  }

  /** Collapsing works piece by piece across a boundary that is not inside a whitespace run. */
  lemma {:induction false} CollapseConcat(a: string, c: string)
    requires a == [] || !IsSpace(a[|a| - 1])
    ensures CollapseSpaces(a + c) == CollapseSpaces(a) + CollapseSpaces(c)
    decreases |a|
  {
    if a == [] {
      assert a + c == c;
    } else {
      LeadingSpacesConcat(a, c);
      var k := LeadingSpaces(a);
      if k > 0 {
        CollapseConcatSpaces(a, c, k);
      } else {
        CollapseConcatOther(a, c);
      }
    }
  }

  /** The case of CollapseConcat where `a` starts with a whitespace run. */
  lemma {:induction false} CollapseConcatSpaces(a: string, c: string, k: nat)
    requires a != [] && !IsSpace(a[|a| - 1])
    requires k == LeadingSpaces(a) && 0 < k < |a|
    requires LeadingSpaces(a + c) == k && (a + c)[k..] == a[k..] + c
    ensures CollapseSpaces(a + c) == CollapseSpaces(a) + CollapseSpaces(c)
    decreases |a|, 0
  {
    var t := a[k..];
    assert t[|t| - 1] == a[|a| - 1];
    CollapseAtSpaces(a, k);
    CollapseAtSpaces(a + c, k);
    CollapseConcat(t, c);
    Regroup(" ", CollapseSpaces(t), CollapseSpaces(c));
  }

  /** The case of CollapseConcat where `a` starts with a non-space. */
  lemma {:induction false} CollapseConcatOther(a: string, c: string)
    requires a != [] && !IsSpace(a[|a| - 1])
    requires LeadingSpaces(a) == 0 && LeadingSpaces(a + c) == 0
    ensures CollapseSpaces(a + c) == CollapseSpaces(a) + CollapseSpaces(c)
    decreases |a|, 0
  {
    var t := a[1..];
    assert (a + c)[1..] == t + c && (a + c)[0] == a[0];
    assert t == [] || t[|t| - 1] == a[|a| - 1];
    CollapseAtOther(a);
    CollapseAtOther(a + c);
    CollapseConcat(t, c);
    Regroup([a[0]], CollapseSpaces(t), CollapseSpaces(c));
  }

  /** A whole whitespace run becomes one plain space. */
  lemma CollapseRun(w: string, b: string)
    requires w != [] && AllSpace(w)
    requires b == [] || !IsSpace(b[0])
    ensures CollapseSpaces(w + b) == " " + CollapseSpaces(b)
  {
    LeadingSpacesOfRun(w, b);
    assert (w + b)[|w|..] == b;
    CollapseAtSpaces(w + b, |w|);
  }

  /**
   * quiz.js's "multiple spaces => single space": a whitespace run between two
   * non-space characters becomes one space, and the text on each side is collapsed
   * on its own.
   */
  lemma CollapseAround(a: string, w: string, b: string)
    requires a == [] || !IsSpace(a[|a| - 1])
    requires w != [] && AllSpace(w)
    requires b == [] || !IsSpace(b[0])
    ensures CollapseSpaces(a + w + b) == CollapseSpaces(a) + " " + CollapseSpaces(b)
  {
    Regroup(a, w, b);
    CollapseConcat(a, w + b);
    CollapseRun(w, b);
    Regroup(CollapseSpaces(a), " ", CollapseSpaces(b));
  }

  /** A boundary that no piece of the comma rewrite crosses: the text before it ends in a non-space that is not a comma. */
  predicate CleanEnd(a: string) {
    a == [] || (!IsSpace(a[|a| - 1]) && a[|a| - 1] != ',')
  }

  /** Tightening works piece by piece across a clean boundary. */
  lemma {:induction false} TightenConcat(a: string, c: string)
    requires CleanEnd(a)
    ensures TightenCommas(a + c) == TightenCommas(a) + TightenCommas(c)
    decreases |a|
  {
    if a == [] {
      assert a + c == c;
      assert TightenCommas(a) == [];
    } else if LeadingSpaces(a) < |a| && a[LeadingSpaces(a)] == ',' {
      TightenConcatComma(a, c);
    } else if LeadingSpaces(a) > 0 {
      TightenConcatSpaces(a, c);
    } else {
      TightenConcatOther(a, c);
    }
  }

  /** The case of TightenConcat where the first piece of `a` is a comma with its whitespace. */
  lemma {:induction false} TightenConcatComma(a: string, c: string)
    requires CleanEnd(a) && a != []
    requires LeadingSpaces(a) < |a| && a[LeadingSpaces(a)] == ','
    ensures TightenCommas(a + c) == TightenCommas(a) + TightenCommas(c)
    decreases |a|, 0
  {
    var k := LeadingSpaces(a);
    LeadingSpacesConcat(a, c);
    var after := AfterComma(a, k);
    AfterCommaConcat(a, c, k);
    TightenAtComma(a, k);
    TightenAtComma(a + c, k);
    TightenConcat(after, c);
    Regroup([','], TightenCommas(after), TightenCommas(c));
  }

  /** What follows a comma that is not the last character of `a` stays inside `a`. */
  lemma AfterCommaConcat(a: string, c: string, k: nat)
    requires CleanEnd(a) && a != [] && k < |a| && a[k] == ','
    ensures AfterComma(a + c, k) == AfterComma(a, k) + c
    ensures CleanEnd(AfterComma(a, k)) && AfterComma(a, k) != []
  {
    var rest := a[k + 1..];
    assert rest != [] && rest[|rest| - 1] == a[|a| - 1];
    LeadingSpacesConcat(rest, c);
    assert (a + c)[k + 1..] == rest + c;
  }

  /** The case of TightenConcat where `a` starts with a whitespace run that no comma ends. */
  lemma {:induction false} TightenConcatSpaces(a: string, c: string)
    requires CleanEnd(a) && a != []
    requires 0 < LeadingSpaces(a) && !(LeadingSpaces(a) < |a| && a[LeadingSpaces(a)] == ',')
    ensures TightenCommas(a + c) == TightenCommas(a) + TightenCommas(c)
    decreases |a|, 0
  {
    var k := LeadingSpaces(a);
    LeadingSpacesConcat(a, c);
    assert (a + c)[..k] == a[..k];
    TightenAtSpaces(a, k);
    TightenAtSpaces(a + c, k);
    TightenConcat(a[k..], c);
    Regroup(a[..k], TightenCommas(a[k..]), TightenCommas(c));
  }

  /** The case of TightenConcat where `a` starts with a character that is neither whitespace nor a comma. */
  lemma {:induction false} TightenConcatOther(a: string, c: string)
    requires CleanEnd(a) && a != []
    requires LeadingSpaces(a) == 0 && a[0] != ','
    ensures TightenCommas(a + c) == TightenCommas(a) + TightenCommas(c)
    decreases |a|, 0
  {
    LeadingSpacesConcat(a, c);
    var t := a[1..];
    assert (a + c)[1..] == t + c && (a + c)[0] == a[0];
    assert t == [] || t[|t| - 1] == a[|a| - 1];
    TightenAtOther(a);
    TightenAtOther(a + c);
    TightenConcat(t, c);
    Regroup([a[0]], TightenCommas(t), TightenCommas(c));
  }

  /** A comma with whitespace on either side becomes a bare comma. */
  lemma TightenCommaRun(w1: string, w2: string, b: string)
    requires AllSpace(w1) && AllSpace(w2)
    requires b == [] || !IsSpace(b[0])
    ensures TightenCommas(w1 + "," + w2 + b) == "," + TightenCommas(b)
  {
    var s := w1 + "," + w2 + b;
    CommaRunLayout(w1, w2, b);
    TrimStartOfRun(w2, b);
    TightenAtComma(s, |w1|);
  }

  /** Where the comma and the text after it sit in `w1 + "," + w2 + b`. */
  lemma CommaRunLayout(w1: string, w2: string, b: string)
    requires AllSpace(w1)
    ensures LeadingSpaces(w1 + "," + w2 + b) == |w1|
    ensures (w1 + "," + w2 + b)[|w1|] == ','
    ensures (w1 + "," + w2 + b)[|w1| + 1..] == w2 + b
  {
    var t := "," + w2 + b;
    assert w1 + "," + w2 + b == w1 + t;
    LeadingSpacesOfRun(w1, t);
    assert (w1 + t)[|w1| + 1..] == t[1..];
  }

  /** A whitespace run that does not end at a comma is kept as it is. */
  lemma TightenKeepsRun(w: string, b: string)
    requires w != [] && AllSpace(w)
    requires b != [] && !IsSpace(b[0]) && b[0] != ','
    ensures TightenCommas(w + b) == w + TightenCommas(b)
  {
    LeadingSpacesOfRun(w, b);
    assert (w + b)[..|w|] == w && (w + b)[|w|..] == b;
    TightenAtSpaces(w + b, |w|);
  }

  /**
   * The comma rewrite of quiz.js: a comma and the whitespace around it become a bare
   * comma, and the text on each side is tightened on its own.
   */
  lemma TightenAround(a: string, w1: string, w2: string, b: string)
    requires CleanEnd(a)
    requires AllSpace(w1) && AllSpace(w2)
    requires b == [] || !IsSpace(b[0])
    ensures TightenCommas(a + w1 + "," + w2 + b) == TightenCommas(a) + "," + TightenCommas(b)
  {
    var tail := w1 + "," + w2 + b;
    assert a + w1 + "," + w2 + b == a + tail;
    TightenConcat(a, tail);
    TightenCommaRun(w1, w2, b);
    Regroup(TightenCommas(a), ",", TightenCommas(b));
  }

  /** Whitespace between two words, away from any comma, is kept by the comma rewrite. */
  lemma TightenKeepsSpaceAround(a: string, w: string, b: string)
    requires CleanEnd(a)
    requires w != [] && AllSpace(w)
    requires b != [] && !IsSpace(b[0]) && b[0] != ','
    ensures TightenCommas(a + w + b) == TightenCommas(a) + w + TightenCommas(b)
  {
    Regroup(a, w, b);
    TightenConcat(a, w + b);
    TightenKeepsRun(w, b);
    Regroup(TightenCommas(a), w, TightenCommas(b));
  }

  /**
   * `normalizeAnswer`: trim, lower-case, tighten commas, collapse whitespace. The
   * result is empty exactly when the input is blank.
   */
  function Normalize(s: string): (r: string)
    ensures r == [] <==> Trim(s) == []
  {
    CollapseSpaces(TightenCommas(Lower(Trim(s))))
  }

  /** Text without whitespace is left alone by both rewrites. */
  lemma SpaceFree(t: string)
    requires forall i :: 0 <= i < |t| ==> !IsSpace(t[i])
    ensures TightenCommas(t) == t && CollapseSpaces(t) == t
  {
    TightenFixpoint(t);
    CollapseFixpoint(t);
  }

  /**
   * The comma rewrite at work on normalized text: two canonical answers joined by a
   * comma with any whitespace around it normalize to the two joined by a bare comma
   * (so "1, 2,3" gives "1,2,3").
   */
  lemma NormalizeAroundComma(a: string, w1: string, w2: string, b: string)
    requires IsNormal(a) && IsNormal(b) && a != [] && b != []
    requires a[|a| - 1] != ','
    requires AllSpace(w1) && AllSpace(w2)
    ensures Normalize(a + w1 + "," + w2 + b) == a + "," + b
  {
    var m := w1 + "," + w2;
    SpaceNoUpper(w1);
    SpaceNoUpper(w2);
    UpperJoin(w1, ",");
    UpperJoin(w1 + ",", w2);
    NormalTrimLower(a, m, b);
    assert a + m + b == a + w1 + "," + w2 + b;
    TightenAround(a, w1, w2, b);
    TightenFixpoint(a);
    TightenFixpoint(b);
    CollapseCommaJoin(a, b);
  }

  /**
   * The whitespace rewrite at work on normalized text: two canonical answers joined by
   * any whitespace run, away from a comma, normalize to the two joined by one space
   * (so "New \t York" gives "new york").
   */
  lemma NormalizeAroundSpace(a: string, w: string, b: string)
    requires IsNormal(a) && IsNormal(b) && a != [] && b != []
    requires a[|a| - 1] != ',' && b[0] != ','
    requires w != [] && AllSpace(w)
    ensures Normalize(a + w + b) == a + " " + b
  {
    SpaceNoUpper(w);
    NormalTrimLower(a, w, b);
    TightenKeepsSpaceAround(a, w, b);
    TightenFixpoint(a);
    TightenFixpoint(b);
    CollapseAround(a, w, b);
    CollapseFixpoint(a);
    CollapseFixpoint(b);
  }

  lemma SpaceNoUpper(w: string)
    requires AllSpace(w)
    ensures NoUpper(w)
  {
  }

  /** Between two canonical answers, any text without capitals survives trimming and lower-casing. */
  lemma NormalTrimLower(a: string, m: string, b: string)
    requires IsNormal(a) && IsNormal(b) && a != [] && b != []
    requires NoUpper(m)
    ensures Lower(Trim(a + m + b)) == a + m + b
  {
    var s := a + m + b;
    assert s[0] == a[0] && s[|s| - 1] == b[|b| - 1];
    UpperJoin(a, m);
    UpperJoin(a + m, b);
    LowerFixpoint(s);
  }

  /** Two canonical answers joined by a bare comma are left alone by collapsing. */
  lemma CollapseCommaJoin(a: string, b: string)
    requires IsNormal(a) && IsNormal(b) && b != []
    ensures CollapseSpaces(a + "," + b) == a + "," + b
  {
    var t := "," + b;
    assert t[0] == ',' && t[1..] == b;
    assert LeadingSpaces(t) == 0;
    CollapseAtOther(t);
    CollapseFixpoint(b);
    if a != [] {
      CollapseConcat(a, t);
      CollapseFixpoint(a);
    } else {
      assert a + t == t;
    }
    Regroup(a, ",", b);
  }

  /** Whatever the input, `normalizeAnswer` returns a string in canonical form. */
  lemma NormalizeIsNormal(s: string)
    ensures IsNormal(Normalize(s))
  {
    var u := Lower(Trim(s));
    var v := TightenCommas(u);
    TightenNoSpaceByComma(u);
    TightenNoUpper(u);
    TightenLast(u);
    CollapseBlanks(v);
    CollapseLast(v);
    CollapseNoUpper(v);
    CollapseNoSpaceByComma(v);
  }

  /** A string with no whitespace beside any comma is left unchanged by tightening. */
  lemma {:induction false} TightenFixpoint(t: string)
    requires NoSpaceByComma(t)
    ensures TightenCommas(t) == t
    decreases |t|
  {
    if t != [] {
      var k := LeadingSpaces(t);
      if k < |t| && t[k] == ',' {
        LeadingComma(t, k);
        TightenAtComma(t, 0);
        TightenFixpointComma(t);
      } else if k > 0 {
        TightenAtSpaces(t, k);
        TightenFixpointRest(t, k);
      } else {
        TightenAtOther(t);
        TightenFixpointRest(t, 1);
      }
    }
  }

  /** Without whitespace before a comma, a comma after the leading whitespace is the first character. */
  lemma LeadingComma(t: string, k: nat)
    requires NoSpaceByComma(t) && k == LeadingSpaces(t) && k < |t| && t[k] == ','
    ensures k == 0
  {
    if k > 0 {
      CommaNeighbours(t, k - 1);
    }
  }

  lemma {:induction false} TightenFixpointComma(t: string)
    requires NoSpaceByComma(t) && t != [] && t[0] == ','
    ensures [','] + TightenCommas(AfterComma(t, 0)) == t
    decreases |t|, 0
  {
    if |t| > 1 {
      CommaNeighbours(t, 0);
    }
    AfterCommaTight(t, 0);
    CommaSuffix(t, 1);
    TightenFixpoint(t[1..]);
  }

  lemma {:induction false} TightenFixpointRest(t: string, j: nat)
    requires NoSpaceByComma(t) && 0 < j <= |t|
    ensures t[..j] + TightenCommas(t[j..]) == t
    decreases |t|, 0
  {
    CommaSuffix(t, j);
    TightenFixpoint(t[j..]);
    assert t == t[..j] + t[j..];
  }

  /** A string with single plain spaces only is left unchanged by collapsing. */
  lemma {:induction false} CollapseFixpoint(t: string)
    requires SpacesAreBlanks(t) && NoDoubleSpace(t)
    ensures CollapseSpaces(t) == t
    decreases |t|
  {
    if t != [] {
      SuffixShape(t, 1);
      CollapseFixpoint(t[1..]);
      if IsSpace(t[0]) {
        assert |t| > 1 ==> !IsSpace(t[1]);
        assert LeadingSpaces(t) == 1;
        assert t == " " + t[1..];
      }
    }
  }

  /** A string already in canonical form is its own normalization. */
  lemma NormalFixpoint(t: string)
    requires IsNormal(t)
    ensures Normalize(t) == t
  {
    LowerFixpoint(t);
    TightenFixpoint(t);
    CollapseFixpoint(t);
  }

  /** Normalizing twice is normalizing once. */
  lemma NormalizeIdempotent(s: string)
    ensures Normalize(Normalize(s)) == Normalize(s)
  {
    NormalizeIsNormal(s);
    NormalFixpoint(Normalize(s));
  }

  // ---------------------------------------------------------------------------
  // Splitting an accepted-answer cell on "or"
  // ---------------------------------------------------------------------------

  predicate IsO(c: char) { c == 'o' || c == 'O' }

  predicate IsR(c: char) { c == 'r' || c == 'R' }

  /**
   * The length of the match of `/\s+or\s+/i` at the start of `s`, or 0 when it does not
   * match there. Both whitespace runs are greedy.
   */
  function SeparatorAt(s: string): (n: nat)
    ensures n <= |s|
    ensures n > 0 ==> IsSpace(s[0]) && n >= 4
  {
    var k := LeadingSpaces(s);
    if 0 < k && k + 2 < |s| && IsO(s[k]) && IsR(s[k + 1]) && IsSpace(s[k + 2])
    then k + 2 + LeadingSpaces(s[k + 2..])
    else 0
  }

  /** `raw.split(/\s+or\s+/i)`: the text between leftmost separator matches. */
  function SplitOr(s: string): (parts: seq<string>)
    ensures |parts| >= 1
    decreases |s|
  {
    if s == [] then [""]
    else if SeparatorAt(s) > 0 then [""] + SplitOr(s[SeparatorAt(s)..])
    else
      var rest := SplitOr(s[1..]);
      [[s[0]] + rest[0]] + rest[1..]
  }

  /** The word "or" (any case) at index `i` of `p`, after whitespace and followed by whitespace or the end. */
  predicate OrWordAt(p: string, i: int) {
    1 <= i && i + 2 <= |p| && IsSpace(p[i - 1]) && IsO(p[i]) && IsR(p[i + 1]) && (i + 2 == |p| || IsSpace(p[i + 2]))
  }

  /** A match found at the front of `s` is a whole separator, and it is greedy: no whitespace follows it. */
  lemma SeparatorAtMatches(s: string)
    ensures var n := SeparatorAt(s);
            n > 0 ==> OrSeparator(s[..n]) && (n == |s| || !IsSpace(s[n]))
  {
    var n := SeparatorAt(s);
    if n > 0 {
      var k := LeadingSpaces(s);
      var t := s[..n];
      assert t == s[..k] + s[k..n];
      LeadingSpacesOfRun(s[..k], s[k..n]);
      assert t[k + 2..] == s[k + 2..][..n - k - 2];
    }
  }

  /** An alternative that survives being joined with " or ": nonempty, no edge whitespace, no free-standing "or". */
  predicate Alternative(p: string) {
    |p| > 0 && !IsSpace(p[0]) && !IsSpace(p[|p| - 1]) && forall i :: 0 <= i < |p| ==> !OrWordAt(p, i)
  }

  /**
   * A full match of `/\s+or\s+/i`: a nonempty whitespace run, "or" in any letter case,
   * and a nonempty whitespace run.
   */
  predicate OrSeparator(sep: string) {
    var k := LeadingSpaces(sep);
    0 < k && k + 2 < |sep| && IsO(sep[k]) && IsR(sep[k + 1]) && AllSpace(sep[k + 2..])
  }

  /**
   * Alternatives written as one cell, such as "a or b" or "a\tOR  b": `ps` are the
   * alternatives and `seps` the separators written between neighbours.
   */
  function JoinOr(ps: seq<string>, seps: seq<string>): (r: string)
    requires |ps| >= 1 && |seps| == |ps| - 1
    requires forall k :: 0 <= k < |ps| ==> Alternative(ps[k])
    requires forall k :: 0 <= k < |seps| ==> OrSeparator(seps[k])
    ensures r != [] && !IsSpace(r[0])
    decreases |ps|
  {
    assert Alternative(ps[0]);
    if |ps| == 1 then ps[0] else ps[0] + (seps[0] + JoinOr(ps[1..], seps[1..]))
  }

  /** No separator starts at the front of `p + y` when `p` holds no free-standing "or" and ends in a non-space. */
  lemma NoSeparatorAtGlue(p: string, y: string)
    requires p != [] && !IsSpace(p[|p| - 1])
    requires forall i :: 0 <= i < |p| ==> !OrWordAt(p, i)
    requires y == [] || IsSpace(y[0])
    ensures SeparatorAt(p + y) == 0
  {
    var s := p + y;
    if IsSpace(p[0]) {
      var k := LeadingSpaces(s);
      assert s[|p| - 1] == p[|p| - 1];
      assert k < |p|;
      if 0 < k && k + 2 < |s| && IsO(s[k]) && IsR(s[k + 1]) && IsSpace(s[k + 2]) {
        assert k + 1 < |p|;
        assert s[k - 1] == p[k - 1] && s[k] == p[k] && s[k + 1] == p[k + 1];
        assert k + 2 < |p| ==> s[k + 2] == p[k + 2];
        assert OrWordAt(p, k);
        assert false;
      }
    }
  }

  /** Where no separator starts, the first character joins the first part of the rest. */
  lemma SplitCons(s: string)
    requires s != [] && SeparatorAt(s) == 0
    ensures SplitOr(s) == [[s[0]] + SplitOr(s[1..])[0]] + SplitOr(s[1..])[1..]
  {
  }

  /** Dropping the first character keeps a string free of free-standing "or" words. */
  lemma NoOrWordSuffix(p: string)
    requires p != []
    requires forall i :: 0 <= i < |p| ==> !OrWordAt(p, i)
    ensures forall i :: 0 <= i < |p| - 1 ==> !OrWordAt(p[1..], i)
  {
    forall i | 0 <= i < |p| - 1
      ensures !OrWordAt(p[1..], i)
    {
      assert OrWordAt(p[1..], i) ==> OrWordAt(p, i + 1);
    }
  }

  /** A prefix without a free-standing "or" and ending in a non-space stays glued to the first part of what follows it. */
  lemma {:induction false} SplitGlue(p: string, y: string)
    requires p != [] && !IsSpace(p[|p| - 1])
    requires forall i :: 0 <= i < |p| ==> !OrWordAt(p, i)
    requires y == [] || IsSpace(y[0])
    ensures SplitOr(p + y) == [p + SplitOr(y)[0]] + SplitOr(y)[1..]
    decreases |p|
  {
    NoSeparatorAtGlue(p, y);
    SplitCons(p + y);
    if |p| == 1 {
      assert p + y == [p[0]] + y;
    } else {
      SplitGlueStep(p, y);
    }
  }

  /** The case of SplitGlue for a prefix of two or more characters. */
  lemma {:induction false} SplitGlueStep(p: string, y: string)
    requires |p| > 1 && !IsSpace(p[|p| - 1])
    requires forall i :: 0 <= i < |p| ==> !OrWordAt(p, i)
    requires y == [] || IsSpace(y[0])
    requires SplitOr(p + y) == [[p[0]] + SplitOr((p + y)[1..])[0]] + SplitOr((p + y)[1..])[1..]
    ensures SplitOr(p + y) == [p + SplitOr(y)[0]] + SplitOr(y)[1..]
    decreases |p|, 0
  {
    var q := p[1..];
    DropFirstOfConcat(p, y);
    NoOrWordSuffix(p);
    SplitGlue(q, y);
    assert [p[0]] + q == p;
    GlueFirst(p[0], q, SplitOr(y)[0], SplitOr(y)[1..], SplitOr(q + y));
  }

  lemma DropFirstOfConcat(p: string, y: string)
    requires p != []
    ensures (p + y)[1..] == p[1..] + y
  {
  }

  lemma GlueFirst(c: char, q: string, a: string, tail: seq<string>, r: seq<string>)
    requires r == [q + a] + tail
    ensures [[c] + r[0]] + r[1..] == [([c] + q) + a] + tail
  {
    assert [c] + (q + a) == ([c] + q) + a;
  }

  /**
   * Round trip: alternatives joined by separators that match `/\s+or\s+/i` split back
   * into exactly those alternatives, whatever the whitespace and letter case of each
   * separator.
   */
  lemma {:induction false} SplitJoinRoundTrip(ps: seq<string>, seps: seq<string>)
    requires |ps| >= 1 && |seps| == |ps| - 1
    requires forall k :: 0 <= k < |ps| ==> Alternative(ps[k])
    requires forall k :: 0 <= k < |seps| ==> OrSeparator(seps[k])
    ensures SplitOr(JoinOr(ps, seps)) == ps
    decreases |ps|
  {
    if |ps| == 1 {
      SplitGlue(ps[0], "");
      assert ps[0] + "" == ps[0];
    } else {
      SplitJoinStep(ps, seps);
    }
  }

  /** The case of SplitJoinRoundTrip for two or more alternatives. */
  lemma {:induction false} SplitJoinStep(ps: seq<string>, seps: seq<string>)
    requires |ps| >= 2 && |seps| == |ps| - 1
    requires forall k :: 0 <= k < |ps| ==> Alternative(ps[k])
    requires forall k :: 0 <= k < |seps| ==> OrSeparator(seps[k])
    ensures SplitOr(JoinOr(ps, seps)) == ps
    decreases |ps|, 0
  {
    var j := JoinOr(ps[1..], seps[1..]);
    var y := seps[0] + j;
    JoinOrCons(ps, seps);
    assert y[0] == seps[0][0];
    SplitGlue(ps[0], y);
    SplitAfterSeparator(seps[0], j);
    SplitJoinRoundTrip(ps[1..], seps[1..]);
    var rest := SplitOr(y);
    assert rest[0] == "" && rest[1..] == ps[1..];
    assert ps[0] + "" == ps[0];
    assert ps == [ps[0]] + ps[1..];
  }

  /** The first alternative, then the first separator, then the rest of the cell. */
  lemma JoinOrCons(ps: seq<string>, seps: seq<string>)
    requires |ps| >= 2 && |seps| == |ps| - 1
    requires forall k :: 0 <= k < |ps| ==> Alternative(ps[k])
    requires forall k :: 0 <= k < |seps| ==> OrSeparator(seps[k])
    ensures JoinOr(ps, seps) == ps[0] + (seps[0] + JoinOr(ps[1..], seps[1..]))
    ensures Alternative(ps[0]) && IsSpace(seps[0][0])
  {
    assert Alternative(ps[0]) && OrSeparator(seps[0]);
  }

  /** A cell that starts with a whole separator, followed by a non-space or nothing, splits into an empty part and the split of the rest. */
  lemma SplitAfterSeparator(sep: string, j: string)
    requires OrSeparator(sep)
    requires j == [] || !IsSpace(j[0])
    ensures SplitOr(sep + j) == [""] + SplitOr(j)
  {
    SeparatorMatch(sep, j);
  }

  /**
   * The separator pattern matches exactly the separator at the front of `sep + j`, when
   * `j` is empty or starts with a non-space.
   */
  lemma SeparatorMatch(sep: string, j: string)
    requires OrSeparator(sep)
    requires j == [] || !IsSpace(j[0])
    ensures SeparatorAt(sep + j) == |sep| && (sep + j)[|sep|..] == j
  {
    var y := sep + j;
    var k := LeadingSpaces(sep);
    assert sep == sep[..k] + sep[k..];
    assert y == sep[..k] + (sep[k..] + j);
    LeadingSpacesOfRun(sep[..k], sep[k..] + j);
    assert y[k] == sep[k] && y[k + 1] == sep[k + 1] && y[k + 2] == sep[k + 2];
    assert y[k + 2..] == sep[k + 2..] + j;
    LeadingSpacesOfRun(sep[k + 2..], j);
  }

  // ---------------------------------------------------------------------------
  // Variants and acceptance
  // ---------------------------------------------------------------------------

  /** `.map(normalizeAnswer).filter(part => part.length > 0)` */
  function KeepNormalized(parts: seq<string>): (vs: seq<string>)
    ensures |vs| <= |parts|
    ensures forall k :: 0 <= k < |vs| ==> vs[k] != []
    decreases |parts|
  {
    if parts == [] then []
    else
      var v := Normalize(parts[0]);
      (if v == [] then [] else [v]) + KeepNormalized(parts[1..])
  }

  /** Some part of `parts` normalizes to `v`. */
  ghost predicate SomePartNormalizesTo(parts: seq<string>, v: string) {
    exists i :: 0 <= i < |parts| && Normalize(parts[i]) == v
  }

  lemma {:induction false} KeepNormalizedMembership(parts: seq<string>, v: string)
    ensures v in KeepNormalized(parts) <==> v != [] && SomePartNormalizesTo(parts, v)
    decreases |parts|
  {
    if parts != [] {
      KeepNormalizedMembership(parts[1..], v);
      SomePartCons(parts, v);
    }
  }

  /** A part normalizes to `v` exactly when the first one does or one of the others does. */
  lemma SomePartCons(parts: seq<string>, v: string)
    requires parts != []
    ensures SomePartNormalizesTo(parts, v) <==> Normalize(parts[0]) == v || SomePartNormalizesTo(parts[1..], v)
  {
    if SomePartNormalizesTo(parts, v) {
      var i :| 0 <= i < |parts| && Normalize(parts[i]) == v;
      assert i > 0 ==> Normalize(parts[1..][i - 1]) == v;
    }
    if SomePartNormalizesTo(parts[1..], v) {
      var i :| 0 <= i < |parts[1..]| && Normalize(parts[1..][i]) == v;
      assert Normalize(parts[i + 1]) == v;
    }
  }

  /** `getCorrectVariants`: the nonempty normalized parts of the cell. */
  function Variants(raw: string): (vs: seq<string>)
    ensures |vs| <= |SplitOr(raw)|
    ensures forall k :: 0 <= k < |vs| ==> vs[k] != []
  {
    KeepNormalized(SplitOr(raw))
  }

  /** Every variant is already in canonical form, so normalizing it again changes nothing. */
  lemma VariantsNormal(raw: string, k: nat)
    requires k < |Variants(raw)|
    ensures IsNormal(Variants(raw)[k])
    ensures Normalize(Variants(raw)[k]) == Variants(raw)[k]
  {
    var parts := SplitOr(raw);
    var v := Variants(raw)[k];
    KeepNormalizedMembership(parts, v);
    var i :| 0 <= i < |parts| && Normalize(parts[i]) == v;
    NormalizeIsNormal(parts[i]);
    NormalFixpoint(v);
  }

  /** `variants.some(v => v === normalizeAnswer(answer))`: a blank answer is never accepted. */
  function Accepts(raw: string, answer: string): (ok: bool)
    ensures ok ==> Trim(answer) != []
  {
    Normalize(answer) in Variants(raw)
  }

  /** Separators differ in whitespace and letter case and still match. */
  lemma SeparatorExamples()
    ensures OrSeparator(" or ")
    ensures OrSeparator("\tOR  ")
    ensures !OrSeparator(" or") && !OrSeparator("or ")
  {
    assert LeadingSpaces(" or ") == 1;
    assert LeadingSpaces("\tOR  ") == 1;
    assert LeadingSpaces("or ") == 0;
  }

  /**
   * An answer is accepted exactly when it is not blank and its normalization equals the
   * normalization of one of the "or"-separated parts of the cell.
   */
  lemma AcceptsIff(raw: string, answer: string)
    ensures Accepts(raw, answer) <==> Trim(answer) != [] && SomePartNormalizesTo(SplitOr(raw), Normalize(answer))
  {
    var parts := SplitOr(raw);
    var v := Normalize(answer);
    assert Accepts(raw, answer) == (v in KeepNormalized(parts));
    KeepNormalizedMembership(parts, v);
  }

  /** Acceptance looks only at the normalization of the answer. */
  lemma AcceptsNormalized(raw: string, answer: string)
    ensures Accepts(raw, Normalize(answer)) <==> Accepts(raw, answer)
  {
    NormalizeIdempotent(answer);
  }

  /** A cell written as canonical alternatives joined by "or" separators accepts exactly the answers that normalize to one of them. */
  lemma AcceptsJoined(ps: seq<string>, seps: seq<string>, answer: string)
    requires |ps| >= 1 && |seps| == |ps| - 1
    requires forall k :: 0 <= k < |ps| ==> Alternative(ps[k]) && IsNormal(ps[k])
    requires forall k :: 0 <= k < |seps| ==> OrSeparator(seps[k])
    ensures Accepts(JoinOr(ps, seps), answer) <==> Normalize(answer) in ps
  {
    SplitJoinRoundTrip(ps, seps);
    AcceptsIff(JoinOr(ps, seps), answer);
    if Normalize(answer) in ps {
      var i :| 0 <= i < |ps| && ps[i] == Normalize(answer);
      NormalFixpoint(ps[i]);
    }
    if Accepts(JoinOr(ps, seps), answer) {
      var i :| 0 <= i < |ps| && Normalize(ps[i]) == Normalize(answer);
      NormalFixpoint(ps[i]);
    }
  }
}

=== FILE: csv.dfy ===
/**
 * The CSV reader shared by quiz.js (`parseMcqCSV`, `parseBiochemOpenCSV`) and
 * script.js (`parseCSV`). All three entry points trim the text, split it into lines on
 * `/\r?\n/`, drop the header line, run the same character scanner over each data line
 * and keep the lines that yield enough fields. They differ only in the column layout.
 */
module Csv {
  import opened Text

  // ---------------------------------------------------------------------------
  // Line splitting
  // ---------------------------------------------------------------------------

  /** `s.split(/\r?\n/)`: a line ends at `\n`, and a `\r` directly before that `\n` belongs to the separator. */
  function Lines(s: string): (r: seq<string>)
    ensures |r| >= 1
    ensures forall k :: 0 <= k < |r| ==> '\n' !in r[k]
    decreases |s|
  {
    if s == [] then [""]
    else if s[0] == '\n' then [""] + Lines(s[1..])
    else if s[0] == '\r' && |s| > 1 && s[1] == '\n' then [""] + Lines(s[2..])
    else
      var rest := Lines(s[1..]);
      [[s[0]] + rest[0]] + rest[1..]
  }

  /** Lines joined back with `\n`. */
  function JoinLines(ls: seq<string>): string
    requires |ls| >= 1
    decreases |ls|
  {
    if |ls| == 1 then ls[0] else ls[0] + "\n" + JoinLines(ls[1..])
  }

  /** There is one line more than there are line feeds. */
  lemma {:induction false} LinesCount(s: string)
    ensures |Lines(s)| == 1 + multiset(s)['\n']
    decreases |s|
  {
    if s == [] {
    } else if s[0] == '\n' {
      assert s == [s[0]] + s[1..];
      LinesCount(s[1..]);
    } else if s[0] == '\r' && |s| > 1 && s[1] == '\n' {
      assert s == [s[0], s[1]] + s[2..];
      LinesCount(s[2..]);
    } else {
      assert s == [s[0]] + s[1..];
      LinesCount(s[1..]);
    }
  }

  /** The text with every `\r\n` pair written as a single `\n`; any other carriage return stays. */
  function CrLfToLf(s: string): (r: string)
    ensures |r| <= |s|
    ensures '\r' !in s ==> r == s
    decreases |s|
  {
    if s == [] then []
    else if s[0] == '\r' && |s| > 1 && s[1] == '\n' then "\n" + CrLfToLf(s[2..])
    else [s[0]] + CrLfToLf(s[1..])
  }

  /**
   * Splitting into lines loses nothing but the carriage returns of `\r\n` pairs: joining
   * the lines with `\n` gives the text with each such pair written as `\n`.
   */
  lemma {:induction false} LinesJoin(s: string)
    ensures JoinLines(Lines(s)) == CrLfToLf(s)
    decreases |s|
  {
    if s == [] {
    } else if s[0] == '\n' {
      LinesJoin(s[1..]);
    } else if s[0] == '\r' && |s| > 1 && s[1] == '\n' {
      LinesJoin(s[2..]);
    } else {
      var rest := Lines(s[1..]);
      LinesJoin(s[1..]);
      var r := Lines(s);
      assert r == [[s[0]] + rest[0]] + rest[1..];
      if |rest| == 1 {
        assert JoinLines(r) == [s[0]] + rest[0];
      } else {
        assert r[1..] == rest[1..];
        assert JoinLines(r) == [s[0]] + rest[0] + "\n" + JoinLines(rest[1..]);
      }
    }
  }

  /** Without carriage returns, joining the lines with `\n` gives the text back. */
  lemma LinesJoinRoundTrip(s: string)
    requires '\r' !in s
    ensures JoinLines(Lines(s)) == s
  {
    LinesJoin(s);
  }

  // ---------------------------------------------------------------------------
  // The field scanner
  // ---------------------------------------------------------------------------

  /**
   * The inner `for (j ...)` loop of the parsers, written over the unread rest `s` of
   * the line. `inQuotes` and `current` are the loop's variables; the result is the
   * `values` array the loop and the final `values.push(current)` produce.
   * A pair of quotes always appends one quote and keeps the quote state, in or out
   * of a quoted field; a lone quote toggles the state; a comma outside quotes ends
   * the field.
   */
  function Scan(s: string, inQuotes: bool, current: string): (fields: seq<string>)
    ensures |fields| >= 1
    decreases |s|
  {
    if s == [] then [current]
    else if s[0] == '"' then
      if |s| > 1 && s[1] == '"' then Scan(s[2..], inQuotes, current + "\"")
      else Scan(s[1..], !inQuotes, current)
    else if s[0] == ',' && !inQuotes then [current] + Scan(s[1..], false, "")
    else Scan(s[1..], inQuotes, current + [s[0]])
  }

  /** The fields of one line: the scan from outside quotes with an empty first field. */
  function Tokenize(line: string): (fields: seq<string>)
    ensures |fields| >= 1
  {
    Scan(line, false, "")
  }

  /** The commas the scanner meets while it is outside quotes. */
  function UnquotedCommas(s: string, inQuotes: bool): nat
    decreases |s|
  {
    if s == [] then 0
    else if s[0] == '"' then
      if |s| > 1 && s[1] == '"' then UnquotedCommas(s[2..], inQuotes)
      else UnquotedCommas(s[1..], !inQuotes)
    else (if s[0] == ',' && !inQuotes then 1 else 0) + UnquotedCommas(s[1..], inQuotes)
  }

  lemma {:induction false} ScanCount(s: string, inQuotes: bool, current: string)
    ensures |Scan(s, inQuotes, current)| == 1 + UnquotedCommas(s, inQuotes)
    decreases |s|
  {
    if s == [] {
    } else if s[0] == '"' {
      if |s| > 1 && s[1] == '"' {
        ScanCount(s[2..], inQuotes, current + "\"");
      } else {
        ScanCount(s[1..], !inQuotes, current);
      }
    } else if s[0] == ',' && !inQuotes {
      ScanCount(s[1..], false, "");
    } else {
      ScanCount(s[1..], inQuotes, current + [s[0]]);
    }
  }

  /** A line has one field more than it has commas outside quotes. */
  lemma TokenizeFieldCount(line: string)
    ensures |Tokenize(line)| == 1 + UnquotedCommas(line, false)
  {
    ScanCount(line, false, "");
  }

  lemma {:induction false} QuoteFreeCommas(s: string)
    requires '"' !in s
    ensures UnquotedCommas(s, false) == multiset(s)[',']
    decreases |s|
  {
    if s != [] {
      assert s == [s[0]] + s[1..];
      QuoteFreeCommas(s[1..]);
    }
  }

  /** On a line without quotes every comma separates two fields. */
  lemma QuoteFreeFieldCount(line: string)
    requires '"' !in line
    ensures |Tokenize(line)| == 1 + multiset(line)[',']
  {
    TokenizeFieldCount(line);
    QuoteFreeCommas(line);
  }

  /**
   * A doubled quote appends a single quote and leaves the quote state as it was,
   * whether or not the scanner is inside a quoted field.
   */
  lemma QuotePairKeepsState(rest: string, inQuotes: bool, current: string)
    ensures Scan("\"\"" + rest, inQuotes, current) == Scan(rest, inQuotes, current + "\"")
  {
    var s := "\"\"" + rest;
    assert s[0] == '"' && s[1] == '"' && s[2..] == rest;
  }

  /** Hence an empty quoted field `""` reads as a one-character field holding a quote, unlike RFC 4180. */
  lemma EmptyQuotedFieldIsQuote()
    ensures Tokenize("\"\"") == ["\""]
    ensures Tokenize("a,\"\",b") == ["a", "\"", "b"]
  {
    QuotePairKeepsState("", false, "");
    assert "\"\"" + "" == "\"\"";
    assert "" + "\"" == "\"";
    var s := "a,\"\",b";
    assert Scan(s, false, "") == Scan(",\"\",b", false, "a") by {
      assert s[1..] == ",\"\",b";
      assert "" + [s[0]] == "a";
    }
    assert Scan(",\"\",b", false, "a") == ["a"] + Scan("\"\",b", false, "") by { assert ",\"\",b"[1..] == "\"\",b"; }
    assert Scan("\"\",b", false, "") == Scan(",b", false, "\"") by {
      assert "\"\",b" == "\"\"" + ",b";
      QuotePairKeepsState(",b", false, "");
    }
    assert Scan(",b", false, "\"") == ["\""] + Scan("b", false, "") by { assert ",b"[1..] == "b"; }
    assert Scan("b", false, "") == ["b"] by {
      assert "b"[1..] == "";
      assert "" + ['b'] == "b";
    }
  }

  // ---------------------------------------------------------------------------
  // Writing fields so that the scanner reads them back
  // ---------------------------------------------------------------------------

  /** A field that can be written bare: no comma and no quote. */
  predicate Plain(f: string) {
    ',' !in f && '"' !in f
  }

  /** Every quote doubled. */
  function Escape(f: string): (r: string)
    ensures '"' !in f ==> r == f
    decreases |f|
  {
    if f == [] then []
    else if f[0] == '"' then "\"\"" + Escape(f[1..])
    else [f[0]] + Escape(f[1..])
  }

  /** A field between quotes, with every inner quote doubled. */
  function Quoted(f: string): (r: string)
    ensures |r| >= 2 && r[0] == '"'
  {
    "\"" + Escape(f) + "\""
  }

  /** A field as a CSV writer would emit it: bare when plain, otherwise quoted. */
  function Encode(f: string): string {
    if Plain(f) then f else Quoted(f)
  }

  /** One CSV line holding the given fields. */
  function JoinFields(fs: seq<string>): string
    requires |fs| >= 1
    decreases |fs|
  {
    if |fs| == 1 then Encode(fs[0]) else Encode(fs[0]) + ("," + JoinFields(fs[1..]))
  }

  predicate AllQuotes(f: string) {
    forall i :: 0 <= i < |f| ==> f[i] == '"'
  }

  /**
   * The fields the scanner reads back from their encoding: every field except a
   * nonempty one made of quotes only (see ScanAllQuotes). The empty field is written
   * bare and read back.
   */
  predicate Recoverable(f: string) {
    f == [] || !AllQuotes(f)
  }

  /** The opening quote of a quoted field whose first character is not a quote enters the quoted state. */
  lemma ScanOpenQuote(f: string, rest: string, current: string)
    requires f != [] && f[0] != '"'
    requires rest == [] || rest[0] != '"'
    ensures Scan(Quoted(f) + rest, false, current) == Scan(rest, false, current + f)
  {
    OpenQuoteShape(f, rest);
    ScanEscaped(f, rest, current);
  }

  /** After the opening quote of such a field comes a character other than a quote. */
  lemma OpenQuoteShape(f: string, rest: string)
    requires f != [] && f[0] != '"'
    ensures |Quoted(f) + rest| > 1 && (Quoted(f) + rest)[1] != '"'
    ensures (Quoted(f) + rest)[1..] == Escape(f) + "\"" + rest
  {
    assert Escape(f)[0] == f[0];
    assert Quoted(f) + rest == "\"" + (Escape(f) + "\"" + rest);
  }

  /** A field that is not made of quotes only keeps that property when a leading quote is dropped. */
  lemma NotAllQuotesTail(f: string)
    requires f != [] && f[0] == '"' && !AllQuotes(f)
    ensures f[1..] != [] && !AllQuotes(f[1..])
  {
    var i :| 0 <= i < |f| && f[i] != '"';
    assert f[1..][i - 1] != '"';
  }

  /** A leading quote of the field is written as a doubled quote after the opening one. */
  lemma QuotedLeadingQuote(f: string, rest: string)
    requires f != [] && f[0] == '"'
    ensures Quoted(f) + rest == "\"\"" + (Quoted(f[1..]) + rest)
  {
    assert Escape(f) == "\"\"" + Escape(f[1..]);
  }

  /**
   * Any field that is not made of quotes only is read back from its quoted, escaped
   * form, whether or not it needed the quotes: `"abc"` reads as `abc`. Leading quotes
   * of the field pair up with each other and are read as themselves.
   */
  lemma {:induction false} ScanQuotedField(f: string, rest: string, current: string)
    requires f != [] && !AllQuotes(f)
    requires rest == [] || rest[0] != '"'
    ensures Scan(Quoted(f) + rest, false, current) == Scan(rest, false, current + f)
    decreases |f|
  {
    if f[0] != '"' {
      ScanOpenQuote(f, rest, current);
    } else {
      var g := f[1..];
      NotAllQuotesTail(f);
      QuotedLeadingQuote(f, rest);
      QuotePairKeepsState(Quoted(g) + rest, false, current);
      ScanQuotedField(g, rest, current + "\"");
      assert current + "\"" + g == current + f;
    }
  }

  /** A field made of quotes only reads back with one quote too many, whatever follows it. */
  lemma {:induction false} ScanAllQuotes(f: string, rest: string, current: string)
    requires f != [] && AllQuotes(f)
    ensures Scan(Quoted(f) + rest, false, current) == Scan(rest, false, current + f + "\"")
    decreases |f|
  {
    var g := f[1..];
    QuotedLeadingQuote(f, rest);
    QuotePairKeepsState(Quoted(g) + rest, false, current);
    if g == [] {
      assert Quoted(g) + rest == "\"\"" + rest;
      QuotePairKeepsState(rest, false, current + "\"");
      assert current + "\"" + "\"" == current + f + "\"";
    } else {
      ScanAllQuotes(g, rest, current + "\"");
      assert current + "\"" + g + "\"" == current + f + "\"";
    }
  }

  /** A single field is read back from its encoding exactly when it is recoverable. */
  lemma EncodeRecovered(f: string)
    ensures Tokenize(Encode(f)) == [f] <==> Recoverable(f)
  {
    if Plain(f) {
      ScanPlainRun(f, "", false, "");
      assert f + "" == f && "" + f == f;
      assert f != [] ==> f[0] in f;
    } else {
      assert Encode(f) == Quoted(f) + "";
      if Recoverable(f) {
        ScanQuotedField(f, "", "");
        assert "" + f == f;
      } else {
        ScanAllQuotes(f, "", "");
        assert Tokenize(Encode(f)) == ["" + f + "\""];
      }
    }
  }

  /** A lone quote is written `""""` and read back as two quotes. */
  lemma LoneQuoteMisread()
    ensures Encode("\"") == "\"\"\"\""
    ensures Tokenize(Encode("\"")) == ["\"\""]
  {
    assert Escape("\"") == "\"\"";
    assert Encode("\"") == Quoted("\"") + "";
    ScanAllQuotes("\"", "", "");
    assert "" + "\"" + "\"" == "\"\"";
  }

  lemma {:induction false} ScanPlainRun(f: string, rest: string, inQuotes: bool, current: string)
    requires '"' !in f
    requires inQuotes || ',' !in f
    ensures Scan(f + rest, inQuotes, current) == Scan(rest, inQuotes, current + f)
    decreases |f|
  {
    if f != [] {
      var s := f + rest;
      assert f[0] in f;
      assert s[0] == f[0] && s[1..] == f[1..] + rest;
      assert Scan(s, inQuotes, current) == Scan(s[1..], inQuotes, current + [f[0]]);
      ScanPlainRun(f[1..], rest, inQuotes, current + [f[0]]);
      assert current + [f[0]] + f[1..] == current + f;
    } else {
      assert f + rest == rest && current + f == current;
    }
  }

  lemma {:induction false} ScanEscaped(f: string, rest: string, current: string)
    requires rest == [] || rest[0] != '"'
    ensures Scan(Escape(f) + "\"" + rest, true, current) == Scan(rest, false, current + f)
    decreases |f|, 1
  {
    if f == [] {
      var s := Escape(f) + "\"" + rest;
      assert s == "\"" + rest;
      assert s[1..] == rest;
      assert current + f == current;
    } else if f[0] == '"' {
      ScanEscapedQuote(f, rest, current);
    } else {
      ScanEscapedOther(f, rest, current);
    }
  }

  /** The case of ScanEscaped for a field starting with a quote, written as a doubled quote. */
  lemma {:induction false} ScanEscapedQuote(f: string, rest: string, current: string)
    requires rest == [] || rest[0] != '"'
    requires f != [] && f[0] == '"'
    ensures Scan(Escape(f) + "\"" + rest, true, current) == Scan(rest, false, current + f)
    decreases |f|, 0
  {
    var t := Escape(f[1..]) + "\"" + rest;
    PrefixAssoc("\"\"", Escape(f[1..]), rest);
    QuotePairKeepsState(t, true, current);
    ScanEscaped(f[1..], rest, current + "\"");
    HeadAssoc(current, f);
  }

  /** The case of ScanEscaped for a field starting with any other character. */
  lemma {:induction false} ScanEscapedOther(f: string, rest: string, current: string)
    requires rest == [] || rest[0] != '"'
    requires f != [] && f[0] != '"'
    ensures Scan(Escape(f) + "\"" + rest, true, current) == Scan(rest, false, current + f)
    decreases |f|, 0
  {
    var t := Escape(f[1..]) + "\"" + rest;
    PrefixAssoc([f[0]], Escape(f[1..]), rest);
    InQuotesChar(f[0], t, current);
    ScanEscaped(f[1..], rest, current + [f[0]]);
    HeadAssoc(current, f);
  }

  /** Regrouping a prefix in front of an escaped text, its closing quote and the rest. */
  lemma PrefixAssoc(p: string, e: string, rest: string)
    ensures (p + e) + "\"" + rest == p + (e + "\"" + rest)
  {
  }

  /** Appending a nonempty field's first character, then the remainder, appends the field. */
  lemma HeadAssoc(current: string, f: string)
    requires f != []
    ensures current + [f[0]] + f[1..] == current + f
  {
    assert f == [f[0]] + f[1..];
  }

  /** Inside quotes, any character but a quote, commas included, joins the field. */
  lemma InQuotesChar(c: char, t: string, current: string)
    requires c != '"'
    ensures Scan([c] + t, true, current) == Scan(t, true, current + [c])
  {
    assert ([c] + t)[0] == c && ([c] + t)[1..] == t;
  }

  /** A recoverable field, as the writer emits it, is read back when a comma or the end of the line follows. */
  lemma ScanEncoded(f: string, rest: string, current: string)
    requires Recoverable(f)
    requires rest == [] || rest[0] == ','
    ensures Scan(Encode(f) + rest, false, current) == Scan(rest, false, current + f)
  {
    if Plain(f) {
      ScanPlainRun(f, rest, false, current);
    } else {
      ScanQuotedField(f, rest, current);
    }
  }

  lemma {:induction false} ScanJoined(fs: seq<string>)
    requires |fs| >= 1
    requires forall k :: 0 <= k < |fs| ==> Recoverable(fs[k])
    ensures Scan(JoinFields(fs), false, "") == fs
    decreases |fs|
  {
    if |fs| == 1 {
      ScanEncoded(fs[0], "", "");
      assert Encode(fs[0]) + "" == JoinFields(fs);
      assert "" + fs[0] == fs[0];
      assert fs == [fs[0]];
    } else {
      ScanJoinedStep(fs);
    }
  }

  /** The case of ScanJoined for two or more fields. */
  lemma {:induction false} ScanJoinedStep(fs: seq<string>)
    requires |fs| >= 2
    requires forall k :: 0 <= k < |fs| ==> Recoverable(fs[k])
    ensures Scan(JoinFields(fs), false, "") == fs
    decreases |fs|, 0
  {
    var tail := JoinFields(fs[1..]);
    assert JoinFields(fs) == Encode(fs[0]) + ("," + tail);
    ScanEncoded(fs[0], "," + tail, "");
    assert "" + fs[0] == fs[0];
    ScanComma(tail, fs[0]);
    ScanJoined(fs[1..]);
    assert fs == [fs[0]] + fs[1..];
  }

  /** A comma outside quotes closes the current field. */
  lemma ScanComma(tail: string, current: string)
    ensures Scan("," + tail, false, current) == [current] + Scan(tail, false, "")
  {
    assert ("," + tail)[1..] == tail;
  }

  /**
   * Round trip: every list of recoverable fields is read back exactly from the line a
   * CSV writer produces for it, including fields that contain commas or quotes (written
   * quoted) and empty fields (written bare).
   */
  lemma TokenizeRoundTrip(fs: seq<string>)
    requires |fs| >= 1
    requires forall k :: 0 <= k < |fs| ==> Recoverable(fs[k])
    ensures Tokenize(JoinFields(fs)) == fs
  {
    ScanJoined(fs);
  }

  // ---------------------------------------------------------------------------
  // Records
  // ---------------------------------------------------------------------------

  /** The five options of a multiple-choice question, under the labels A to E. */
  datatype Options = Options(a: string, b: string, c: string, d: string, e: string)

  /** A multiple-choice record. `id` is the raw first field (it is only displayed). */
  datatype McqQuestion = McqQuestion(id: string, question: string, options: Options, correct: string)

  /** An open-text record: `correct` holds one or more accepted answers joined by "or". */
  datatype OpenQuestion = OpenQuestion(id: string, question: string, correct: string)

  /**
   * The two multiple-choice layouts: quiz.js reads `id, question, A..E, correct`;
   * script.js reads `id, question, topic, A..E, correct` and ignores the topic.
   */
  datatype McqLayout = NoTopic | WithTopic

  /** The column of option A. */
  function OptionsColumn(layout: McqLayout): nat {
    match layout
    case NoTopic => 2
    case WithTopic => 3
  }

  /** The fewest fields a multiple-choice line needs: 8 without the topic column, 9 with it. */
  function McqWidth(layout: McqLayout): nat {
    OptionsColumn(layout) + 6
  }

  /** The fewest fields an open-text line needs. */
  const OpenWidth: nat := 3

  /**
   * The fields of every data line, in file order. The first line of the trimmed text is
   * the header; every line after it gives one row, so there is one row per line feed.
   */
  function DataRows(text: string): (rows: seq<seq<string>>)
    ensures |rows| == multiset(Trim(text))['\n']
    ensures |Lines(Trim(text))| == |rows| + 1
    ensures forall k :: 0 <= k < |rows| ==> rows[k] == Tokenize(Lines(Trim(text))[k + 1])
  {
    var lines := Lines(Trim(text));
    LinesCount(Trim(text));
    seq(|lines| - 1, k requires 0 <= k < |lines| - 1 => Tokenize(lines[k + 1]))
  }

  /** The rows with at least `n` fields, in their original order. */
  function Wide(rows: seq<seq<string>>, n: nat): (r: seq<seq<string>>)
    ensures |r| <= |rows|
    ensures forall k :: 0 <= k < |r| ==> |r[k]| >= n
    decreases |rows|
  {
    if rows == [] then []
    else Wide(rows[..|rows| - 1], n) + (if |rows[|rows| - 1]| >= n then [rows[|rows| - 1]] else [])
  }

  /** Keeping the wide rows commutes with concatenation: rows keep their file order and each line yields at most one record. */
  lemma {:induction false} WideConcat(a: seq<seq<string>>, b: seq<seq<string>>, n: nat)
    ensures Wide(a + b, n) == Wide(a, n) + Wide(b, n)
    decreases |b|
  {
    if b == [] {
      assert a + b == a;
    } else {
      var b' := b[..|b| - 1];
      assert (a + b)[..|a + b| - 1] == a + b';
      assert (a + b)[|a + b| - 1] == b[|b| - 1];
      WideConcat(a, b', n);
    }
  }

  /** A row is kept exactly when it has enough fields. */
  lemma {:induction false} WideMembership(rows: seq<seq<string>>, n: nat, row: seq<string>)
    ensures row in Wide(rows, n) <==> row in rows && |row| >= n
    decreases |rows|
  {
    if rows != [] {
      var init := rows[..|rows| - 1];
      WideMembership(init, n, row);
      assert rows == init + [rows[|rows| - 1]];
    }
  }

  /** The record of a multiple-choice line; `values` has at least `McqWidth(layout)` fields. */
  function McqOf(values: seq<string>, layout: McqLayout): McqQuestion
    requires |values| >= McqWidth(layout)
  {
    var o := OptionsColumn(layout);
    McqQuestion(values[0], Trim(values[1]),
                Options(Trim(values[o]), Trim(values[o + 1]), Trim(values[o + 2]),
                        Trim(values[o + 3]), Trim(values[o + 4])),
                Trim(values[o + 5]))
  }

  /** The record of an open-text line; columns after the third are ignored. */
  function OpenOf(values: seq<string>): OpenQuestion
    requires |values| >= OpenWidth
  {
    OpenQuestion(values[0], Trim(values[1]), Trim(values[2]))
  }

  /** The multiple-choice records of the given rows: one per row with enough fields, in row order. */
  function McqRecords(rows: seq<seq<string>>, layout: McqLayout): (r: seq<McqQuestion>)
    ensures |r| == |Wide(rows, McqWidth(layout))|
    ensures forall k :: 0 <= k < |r| ==> r[k] == McqOf(Wide(rows, McqWidth(layout))[k], layout)
    decreases |rows|
  {
    if rows == [] then []
    else
      var last := rows[|rows| - 1];
      McqRecords(rows[..|rows| - 1], layout) + (if |last| >= McqWidth(layout) then [McqOf(last, layout)] else [])
  }

  /** The open-text records of the given rows: one per row with at least three fields, in row order. */
  function OpenRecords(rows: seq<seq<string>>): (r: seq<OpenQuestion>)
    ensures |r| == |Wide(rows, OpenWidth)|
    ensures forall k :: 0 <= k < |r| ==> r[k] == OpenOf(Wide(rows, OpenWidth)[k])
    decreases |rows|
  {
    if rows == [] then []
    else
      var last := rows[|rows| - 1];
      OpenRecords(rows[..|rows| - 1]) + (if |last| >= OpenWidth then [OpenOf(last)] else [])
  }

  /** One more row extends the records by the record of that row, if it is wide enough. */
  lemma McqRecordsStep(rows: seq<seq<string>>, i: nat, layout: McqLayout)
    requires 1 <= i <= |rows|
    ensures McqRecords(rows[..i], layout) ==
            McqRecords(rows[..i - 1], layout) + (if |rows[i - 1]| >= McqWidth(layout) then [McqOf(rows[i - 1], layout)] else [])
  {
    assert rows[..i][..i - 1] == rows[..i - 1];
  }

  /** One more row extends the open-text records by the record of that row, if it is wide enough. */
  lemma OpenRecordsStep(rows: seq<seq<string>>, i: nat)
    requires 1 <= i <= |rows|
    ensures OpenRecords(rows[..i]) == OpenRecords(rows[..i - 1]) + (if |rows[i - 1]| >= OpenWidth then [OpenOf(rows[i - 1])] else [])
  {
    assert rows[..i][..i - 1] == rows[..i - 1];
  }

  /**
   * The multiple-choice reader of quiz.js (`NoTopic`) and script.js (`WithTopic`):
   * one record per data line with enough fields, in file order; narrower lines are
   * skipped without error, and the header line is never read as a record.
   */
  method ParseMcq(text: string, layout: McqLayout) returns (result: seq<McqQuestion>)
    ensures |Lines(Trim(text))| < 2 ==> result == []
    ensures result == McqRecords(DataRows(text), layout)
  {
    var lines := Lines(Trim(text));
    ghost var rows := DataRows(text);
    if |lines| < 2 {
      return [];
    }
    assert |rows| == |lines| - 1;
    result := [];
    var i := 1;
    while i < |lines|
      invariant 1 <= i <= |lines|
      invariant result == McqRecords(rows[..i - 1], layout)
    {
      var values := Tokenize(lines[i]);
      assert values == rows[i - 1];
      McqRecordsStep(rows, i, layout);
      result := result + (if |values| >= McqWidth(layout) then [McqOf(values, layout)] else []);
      i := i + 1;
    }
    assert rows[..i - 1] == rows;
  }

  /** script.js `parseCSV`: options A to E come from columns 3 to 7, the answer from column 8, and the topic column 2 is never read. */
  method ParseTopicMcq(text: string) returns (result: seq<McqQuestion>)
    ensures |Lines(Trim(text))| < 2 ==> result == []
    ensures result == McqRecords(DataRows(text), WithTopic)
    ensures |result| == |Wide(DataRows(text), 9)|
    ensures forall k :: 0 <= k < |result| ==>
              var v := Wide(DataRows(text), 9)[k];
              && result[k].id == v[0]
              && result[k].question == Trim(v[1])
              && result[k].options == Options(Trim(v[3]), Trim(v[4]), Trim(v[5]), Trim(v[6]), Trim(v[7]))
              && result[k].correct == Trim(v[8])
  {
    result := ParseMcq(text, WithTopic);
  }

  /** The topic column has no influence on the record. */
  lemma TopicIgnored(values: seq<string>, topic: string)
    requires |values| >= McqWidth(WithTopic)
    ensures McqOf(values[2 := topic], WithTopic) == McqOf(values, WithTopic)
  {
  }

  /** quiz.js `parseBiochemOpenCSV`: the same reader with three required columns. */
  method ParseOpen(text: string) returns (result: seq<OpenQuestion>)
    ensures |Lines(Trim(text))| < 2 ==> result == []
    ensures result == OpenRecords(DataRows(text))
  {
    var lines := Lines(Trim(text));
    ghost var rows := DataRows(text);
    if |lines| < 2 {
      return [];
    }
    assert |rows| == |lines| - 1;
    result := [];
    var i := 1;
    while i < |lines|
      invariant 1 <= i <= |lines|
      invariant result == OpenRecords(rows[..i - 1])
    {
      var values := Tokenize(lines[i]);
      assert values == rows[i - 1];
      OpenRecordsStep(rows, i);
      result := result + (if |values| >= OpenWidth then [OpenOf(values)] else []);
      i := i + 1;
    }
    assert rows[..i - 1] == rows;
  }
}

=== FILE: csv_store.dfy ===
/**
 * api/csv.js: serves a stored question file. The `file` query parameter is reduced to
 * its last path segment, one trailing ".csv" (in any letter case) is removed, and the
 * text stored under `"csv:" + base` is returned.
 */
module CsvStore {
  import opened Wrappers
  import opened Text

  /** The `file` query parameter: absent, given once, or repeated (an array). */
  datatype FileParam = NoFile | File(name: string) | Files(names: seq<string>)

  /** A reply: the status, the `Content-Type` header when one is set, and the body text. */
  datatype Reply = Reply(status: nat, contentType: Option<string>, body: string)

  type Store = map<string, string>

  const MissingFile: string := "Missing ?file= parameter"
  const NotFoundPrefix: string := "No data found for key: "
  const FetchFailed: string := "Error fetching CSV from Upstash"
  const PlainText: string := "text/plain; charset=utf-8"

  /** The characters the pattern `[\\/]` matches. */
  predicate IsSeparator(c: char) {
    c == '/' || c == '\\'
  }

  predicate NoSeparator(s: string) {
    forall i :: 0 <= i < |s| ==> !IsSeparator(s[i])
  }

  /** The last element of `split(/[\\/]/)`: the text after the last separator, or all of `s`. */
  function LastSegment(s: string): (r: string)
    ensures |r| <= |s| && r == s[|s| - |r|..]
    ensures NoSeparator(r)
    ensures |r| == |s| || IsSeparator(s[|s| - |r| - 1])
  {
    if s == [] || IsSeparator(s[|s| - 1]) then [] else LastSegment(s[..|s| - 1]) + [s[|s| - 1]]
  }

  /** Whether `e` reads ".csv" with letter case ignored (the `i` flag of `/\.csv$/i`). */
  predicate IsCsvExt(e: string) {
    |e| == 4 && ToLower(e[0]) == '.' && ToLower(e[1]) == 'c' && ToLower(e[2]) == 's' && ToLower(e[3]) == 'v'
  }

  predicate EndsWithCsv(s: string) {
    |s| >= 4 && IsCsvExt(s[|s| - 4..])
  }

  /** `replace(/\.csv$/i, '')`: removes one trailing ".csv", whatever its letter case. */
  function StripCsv(s: string): (r: string)
    ensures EndsWithCsv(s) ==> |r| == |s| - 4
    ensures !EndsWithCsv(s) ==> r == s
    ensures r == s[..|r|]
  {
    if EndsWithCsv(s) then s[..|s| - 4] else s
  }

  /** The store key a file name maps to. */
  function KeyFor(name: string): (key: string)
    ensures |key| >= 4 && key[..4] == "csv:"
    ensures NoSeparator(key[4..])
  {
    "csv:" + StripCsv(LastSegment(name))
  }

  /** The stored text counts only when it is not empty (the source's `!csv`). */
  predicate Holds(store: Store, key: string) {
    key in store && store[key] != []
  }

  /**
   * The handler: the reply, and the key it looked up (None when the store was not
   * consulted). A repeated parameter is an array, whose missing `split` makes the
   * handler fall into its error branch.
   */
  function Serve(param: FileParam, store: Store): (out: (Reply, Option<string>))
    ensures out.0.status == 400 <==> param.NoFile? || param == File("")
    ensures out.0.status == 400 ==> out == (Reply(400, None, MissingFile), None)
    ensures param.Files? ==> out == (Reply(500, None, FetchFailed), None)
    ensures out.1.Some? <==> param.File? && param.name != []
    ensures out.1.Some? ==> out.1.value == KeyFor(param.name)
    ensures out.1.Some? && Holds(store, out.1.value) ==> out.0 == Reply(200, Some(PlainText), store[out.1.value])
    ensures out.1.Some? && !Holds(store, out.1.value) ==> out.0 == Reply(404, None, NotFoundPrefix + out.1.value)
    ensures out.0.status == 200 <==> out.1.Some? && Holds(store, out.1.value)
  {
    match param
    case NoFile => (Reply(400, None, MissingFile), None)
    case Files(_) => (Reply(500, None, FetchFailed), None)
    case File(name) =>
      if name == [] then (Reply(400, None, MissingFile), None)
      else
        var key := KeyFor(name);
        if !Holds(store, key) then (Reply(404, None, NotFoundPrefix + key), Some(key))
        else (Reply(200, Some(PlainText), store[key]), Some(key))
  }

  /** One more character: a separator empties the last segment, anything else extends it. */
  lemma LastSegmentSnoc(t: string, c: char)
    ensures LastSegment(t + [c]) == if IsSeparator(c) then [] else LastSegment(t) + [c]
  {
    assert (t + [c])[..|t|] == t;
  }

  /** Everything up to the last separator is ignored: a directory part never changes the key. */
  lemma {:induction false} LastSegmentAfterSeparator(dir: string, sep: char, name: string)
    requires IsSeparator(sep)
    ensures LastSegment(dir + [sep] + name) == LastSegment(name)
    decreases |name|
  {
    if name == [] {
      assert dir + [sep] + name == dir + [sep];
      LastSegmentSnoc(dir, sep);
    } else {
      var init, c := name[..|name| - 1], name[|name| - 1];
      assert name == init + [c];
      assert dir + [sep] + name == (dir + [sep] + init) + [c];
      LastSegmentSnoc(dir + [sep] + init, c);
      LastSegmentSnoc(init, c);
      LastSegmentAfterSeparator(dir, sep, init);
    }
  }

  /** A name without separators is its own last segment. */
  lemma {:induction false} LastSegmentOfPlain(name: string)
    requires NoSeparator(name)
    ensures LastSegment(name) == name
    decreases |name|
  {
    if name != [] {
      var init, c := name[..|name| - 1], name[|name| - 1];
      assert name == init + [c];
      LastSegmentSnoc(init, c);
      LastSegmentOfPlain(init);
    }
  }

  /** Stripping undoes appending a ".csv" in any letter case, and removes exactly one of them. */
  lemma StripCsvAppended(base: string, ext: string)
    requires IsCsvExt(ext)
    ensures StripCsv(base + ext) == base
  {
    var s := base + ext;
    assert s[|s| - 4..] == ext;
    assert s[..|s| - 4] == base;
  }

  /** Appending ".csv" to a name without separators adds none. */
  lemma PlainWithExt(name: string, ext: string)
    requires NoSeparator(name) && IsCsvExt(ext)
    ensures NoSeparator(name + ext)
  {
    forall i | 0 <= i < |name + ext|
      ensures !IsSeparator((name + ext)[i])
    {
      if i >= |name| {
        assert (name + ext)[i] == ext[i - |name|];
      }
    }
  }

  /**
   * Keys for plain names: "name" and "name.csv" (any letter case) share a key, under
   * any directory, unless the name itself already ends in ".csv".
   */
  lemma KeyForPlain(dir: string, sep: char, name: string, ext: string)
    requires IsSeparator(sep) && NoSeparator(name) && !EndsWithCsv(name) && IsCsvExt(ext)
    ensures KeyFor(name) == "csv:" + name
    ensures KeyFor(name + ext) == "csv:" + name
    ensures KeyFor(dir + [sep] + name + ext) == "csv:" + name
  {
    LastSegmentOfPlain(name);
    PlainWithExt(name, ext);
    LastSegmentOfPlain(name + ext);
    StripCsvAppended(name, ext);
    assert dir + [sep] + name + ext == dir + [sep] + (name + ext);
    LastSegmentAfterSeparator(dir, sep, name + ext);
  }

  /** Only one ".csv" goes. */
  lemma DoubleSuffixExample()
    ensures KeyFor("a.csv.csv") == "csv:a.csv"
  {
    var name := "a.csv.csv";
    assert NoSeparator(name);
    LastSegmentOfPlain(name);
    assert name == "a.csv" + ".csv";
    StripCsvAppended("a.csv", ".csv");
  }
}

=== FILE: grader.dfy ===
/**
 * The all-or-nothing grading of `checkAnswers`: quiz.js grades multiple-choice cards
 * and free-text cards, script.js only multiple-choice ones. A page is graded once:
 * afterwards every input and the check button are disabled.
 */
module Grader {
  import opened Wrappers
  import opened Text
  import opened Answers

  /**
   * A question card as `checkAnswers` sees it. `Choice` is a multiple-choice card with
   * the value of its checked radio button, if any. `Written` is a free-text card with
   * the contents of its text area (`None` when the card has no text area). `Other` is a
   * card whose type is neither, which quiz.js neither counts nor grades.
   */
  datatype Card =
    | Choice(correct: string, selected: Option<string>)
    | Written(correct: string, text: Option<string>)
    | Other

  /** The card is one of the two kinds quiz.js grades. */
  predicate Graded(c: Card) {
    !c.Other?
  }

  /** The first pass: a choice card needs a checked radio, a text card a text that is not blank. */
  predicate Answered(c: Card) {
    match c
    case Choice(_, selected) => selected.Some?
    case Written(_, text) => text.Some? && Trim(text.value) != []
    case Other => true
  }

  /** The second pass: the checked value equals the correct label, or the text matches a variant. */
  predicate Right(c: Card) {
    match c
    case Choice(correct, selected) => selected == Some(correct)
    case Written(correct, text) => text.Some? && Accepts(correct, text.value)
    case Other => false
  }

  function CountUnanswered(cards: seq<Card>): (n: nat)
    ensures n <= |cards|
    ensures n == 0 <==> forall i :: 0 <= i < |cards| ==> Answered(cards[i])
  {
    if cards == [] then 0
    else (if Answered(cards[0]) then 0 else 1) + CountUnanswered(cards[1..])
  }

  function CountGraded(cards: seq<Card>): (n: nat)
    ensures n <= |cards|
    ensures n == |cards| <==> forall i :: 0 <= i < |cards| ==> Graded(cards[i])
  {
    if cards == [] then 0
    else (if Graded(cards[0]) then 1 else 0) + CountGraded(cards[1..])
  }

  /** The positions below `n` whose mark is set. */
  ghost function Marked(marks: seq<bool>, n: nat): set<nat>
    requires n <= |marks|
  {
    set i: nat | i < n && marks[i]
  }

  lemma MarkedNone(marks: seq<bool>)
    ensures Marked(marks, 0) == {}
  {
  }

  /** One more position adds itself to the set exactly when it is marked. */
  lemma MarkedStep(marks: seq<bool>, n: nat)
    requires n < |marks|
    ensures |Marked(marks, n + 1)| == |Marked(marks, n)| + (if marks[n] then 1 else 0)
  {
    var before := Marked(marks, n);
    assert n !in before;
    assert Marked(marks, n + 1) == before + (if marks[n] then {n} else {});
  }

  /** Every graded card is right. */
  predicate AllRight(cards: seq<Card>) {
    forall i :: 0 <= i < |cards| ==> Graded(cards[i]) ==> Right(cards[i])
  }

  function CountRight(cards: seq<Card>): (n: nat)
    ensures n <= CountGraded(cards)
    ensures n == CountGraded(cards) <==> AllRight(cards)
  {
    if cards == [] then 0
    else (if Right(cards[0]) then 1 else 0) + CountRight(cards[1..])
  }

  /** What a click on the check button produces: a refusal, or the score and the number of graded cards. */
  datatype Outcome = Refused | Scored(correct: nat, total: nat)

  /** `checkAnswers` in quiz.js: refuse if any card is unanswered, otherwise count the right cards. */
  function CheckAnswers(cards: seq<Card>): (o: Outcome)
    ensures o.Refused? <==> exists i :: 0 <= i < |cards| && !Answered(cards[i])
    ensures o.Scored? ==> o.total == CountGraded(cards) && o.correct <= o.total
    ensures o.Scored? ==> (o.correct == o.total <==> AllRight(cards))
    ensures o.Scored? ==> o.correct == CountRight(cards)
  {
    if CountUnanswered(cards) > 0 then Refused
    else Scored(CountRight(cards), CountGraded(cards))
  }

  lemma AnsweredSnoc(cards: seq<Card>, i: nat)
    requires i < |cards|
    ensures CountUnanswered(cards[..i + 1]) == CountUnanswered(cards[..i]) + (if Answered(cards[i]) then 0 else 1)
    ensures CountGraded(cards[..i + 1]) == CountGraded(cards[..i]) + (if Graded(cards[i]) then 1 else 0)
  {
    var a, b := cards[..i], [cards[i]];
    assert cards[..i + 1] == a + b;
    FirstPassAppend(a, b);
  }

  lemma {:induction false} FirstPassAppend(a: seq<Card>, b: seq<Card>)
    ensures CountUnanswered(a + b) == CountUnanswered(a) + CountUnanswered(b)
    ensures CountGraded(a + b) == CountGraded(a) + CountGraded(b)
  {
    if a == [] {
      assert a + b == b;
    } else {
      assert (a + b)[1..] == a[1..] + b;
      FirstPassAppend(a[1..], b);
    }
  }

  lemma RightSnoc(cards: seq<Card>, i: nat)
    requires i < |cards|
    ensures CountRight(cards[..i + 1]) == CountRight(cards[..i]) + (if Right(cards[i]) then 1 else 0)
  {
    var a, b := cards[..i], [cards[i]];
    assert cards[..i + 1] == a + b;
    RightAppend(a, b);
  }

  /** The positions below `n` that hold a right card. */
  ghost function RightPositions(cards: seq<Card>, n: nat): set<nat>
    requires n <= |cards|
  {
    Marked(RightMarks(cards), n)
  }

  /** One mark per card: whether it is right. */
  ghost function RightMarks(cards: seq<Card>): (marks: seq<bool>)
    ensures |marks| == |cards|
  {
    seq(|cards|, i requires 0 <= i < |cards| => Right(cards[i]))
  }

  lemma RightMarkStep(cards: seq<Card>, i: nat)
    requires i < |cards|
    ensures CountRight(cards[..i + 1]) == CountRight(cards[..i]) + (if RightMarks(cards)[i] then 1 else 0)
  {
    RightSnoc(cards, i);
  }

  /** The score counts cards: it is the number of positions holding a right card. */
  lemma CountRightCardinality(cards: seq<Card>)
    ensures CountRight(cards) == |RightPositions(cards, |cards|)|
  {
    RightPrefixCount(cards, |cards|);
    assert cards[..|cards|] == cards;
  }

  lemma {:induction false} RightPrefixCount(cards: seq<Card>, n: nat)
    requires n <= |cards|
    ensures CountRight(cards[..n]) == |RightPositions(cards, n)|
    decreases n
  {
    if n == 0 {
      RightPrefixNone(cards);
    } else {
      RightPrefixCount(cards, n - 1);
      RightPrefixStep(cards, n);
    }
  }

  lemma RightPrefixNone(cards: seq<Card>)
    ensures CountRight(cards[..0]) == |RightPositions(cards, 0)|
  {
    assert cards[..0] == [];
    MarkedNone(RightMarks(cards));
  }

  lemma RightPrefixStep(cards: seq<Card>, n: nat)
    requires 0 < n <= |cards|
    requires CountRight(cards[..n - 1]) == |RightPositions(cards, n - 1)|
    ensures CountRight(cards[..n]) == |RightPositions(cards, n)|
  {
    var m := n - 1;
    RightMarkStep(cards, m);
    MarkedStep(RightMarks(cards), m);
  }

  lemma {:induction false} RightAppend(a: seq<Card>, b: seq<Card>)
    ensures CountRight(a + b) == CountRight(a) + CountRight(b)
  {
    if a == [] {
      assert a + b == b;
    } else {
      assert (a + b)[1..] == a[1..] + b;
      RightAppend(a[1..], b);
    }
  }

  /** The first pass of quiz.js `checkAnswers`: count the unanswered cards and the graded ones. */
  method FirstPass(cards: seq<Card>) returns (unanswered: nat, autoCount: nat)
    ensures unanswered == CountUnanswered(cards) && autoCount == CountGraded(cards)
  {
    unanswered, autoCount := 0, 0;
    var i := 0;
    while i < |cards|
      invariant 0 <= i <= |cards|
      invariant unanswered == CountUnanswered(cards[..i])
      invariant autoCount == CountGraded(cards[..i])
    {
      AnsweredSnoc(cards, i);
      if Graded(cards[i]) {
        autoCount := autoCount + 1;
      }
      if !Answered(cards[i]) {
        unanswered := unanswered + 1;
      }
      i := i + 1;
    }
    assert cards[..i] == cards;
  }

  /** The second pass of quiz.js `checkAnswers`: count the right cards. */
  method SecondPass(cards: seq<Card>) returns (correctCount: nat)
    ensures correctCount == CountRight(cards)
  {
    correctCount := 0;
    var i := 0;
    while i < |cards|
      invariant 0 <= i <= |cards|
      invariant correctCount == CountRight(cards[..i])
    {
      RightSnoc(cards, i);
      correctCount := correctCount + (if Right(cards[i]) then 1 else 0);
      i := i + 1;
    }
    assert cards[..i] == cards;
  }

  /** quiz.js `checkAnswers` as written: the first pass, a refusal if anything is unanswered, then the second pass. */
  method Grade(cards: seq<Card>) returns (o: Outcome)
    ensures o == CheckAnswers(cards)
  {
    var unanswered, autoCount := FirstPass(cards);
    if unanswered > 0 {
      return Refused;
    }
    var correctCount := SecondPass(cards);
    o := Scored(correctCount, autoCount);
  }

  /** A right card is an answered, graded card. */
  lemma RightIsAnswered(c: Card)
    ensures Right(c) ==> Answered(c) && Graded(c)
  {
    if c.Written? && Right(c) {
      AcceptsIff(c.correct, c.text.value);
    }
  }

  /** A free-text card is right exactly when its text is not blank and normalizes like one of the "or" parts of the cell. */
  lemma WrittenRightIff(correct: string, text: string)
    ensures Right(Written(correct, Some(text))) <==>
            Trim(text) != [] && SomePartNormalizesTo(SplitOr(correct), Normalize(text))
  {
    assert Right(Written(correct, Some(text))) == Accepts(correct, text);
    AcceptsIff(correct, text);
  }

  // ---------------------------------------------------------------------------
  // script.js: multiple choice only
  // ---------------------------------------------------------------------------

  /** A script.js card: the correct label and the value of the checked radio, if any. */
  datatype Pick = Pick(correct: string, selected: Option<string>)

  function CountPicked(picks: seq<Pick>): (n: nat)
    ensures n <= |picks|
    ensures n == |picks| <==> forall i :: 0 <= i < |picks| ==> picks[i].selected.Some?
  {
    if picks == [] then 0
    else (if picks[0].selected.Some? then 1 else 0) + CountPicked(picks[1..])
  }

  function CountMatched(picks: seq<Pick>): (n: nat)
    ensures n <= CountPicked(picks)
    ensures n == |picks| <==> forall i :: 0 <= i < |picks| ==> picks[i].selected == Some(picks[i].correct)
  {
    if picks == [] then 0
    else (if picks[0].selected == Some(picks[0].correct) then 1 else 0) + CountMatched(picks[1..])
  }

  /** The positions below `n` whose checked radio holds the correct label. */
  ghost function MatchedPositions(picks: seq<Pick>, n: nat): set<nat>
    requires n <= |picks|
  {
    Marked(MatchedMarks(picks), n)
  }

  /** One mark per card: whether its checked value is the correct label. */
  ghost function MatchedMarks(picks: seq<Pick>): (marks: seq<bool>)
    ensures |marks| == |picks|
  {
    seq(|picks|, i requires 0 <= i < |picks| => picks[i].selected == Some(picks[i].correct))
  }

  lemma MatchedMarkStep(picks: seq<Pick>, i: nat)
    requires i < |picks|
    ensures CountMatched(picks[..i + 1]) == CountMatched(picks[..i]) + (if MatchedMarks(picks)[i] then 1 else 0)
  {
    MatchedSnoc(picks, i);
  }

  /** script.js's score is the number of cards whose checked value equals the correct label. */
  lemma CountMatchedCardinality(picks: seq<Pick>)
    ensures CountMatched(picks) == |MatchedPositions(picks, |picks|)|
  {
    MatchedPrefixCount(picks, |picks|);
    assert picks[..|picks|] == picks;
  }

  lemma {:induction false} MatchedPrefixCount(picks: seq<Pick>, n: nat)
    requires n <= |picks|
    ensures CountMatched(picks[..n]) == |MatchedPositions(picks, n)|
    decreases n
  {
    if n == 0 {
      MatchedPrefixNone(picks);
    } else {
      MatchedPrefixCount(picks, n - 1);
      MatchedPrefixStep(picks, n);
    }
  }

  lemma MatchedPrefixNone(picks: seq<Pick>)
    ensures CountMatched(picks[..0]) == |MatchedPositions(picks, 0)|
  {
    assert picks[..0] == [];
    MarkedNone(MatchedMarks(picks));
  }

  lemma MatchedPrefixStep(picks: seq<Pick>, n: nat)
    requires 0 < n <= |picks|
    requires CountMatched(picks[..n - 1]) == |MatchedPositions(picks, n - 1)|
    ensures CountMatched(picks[..n]) == |MatchedPositions(picks, n)|
  {
    var m := n - 1;
    MatchedMarkStep(picks, m);
    MarkedStep(MatchedMarks(picks), m);
  }

  lemma MatchedSnoc(picks: seq<Pick>, i: nat)
    requires i < |picks|
    ensures CountMatched(picks[..i + 1]) == CountMatched(picks[..i]) + (if picks[i].selected == Some(picks[i].correct) then 1 else 0)
  {
    var a, b := picks[..i], [picks[i]];
    assert picks[..i + 1] == a + b;
    MatchedAppend(a, b);
  }

  lemma {:induction false} MatchedAppend(a: seq<Pick>, b: seq<Pick>)
    ensures CountMatched(a + b) == CountMatched(a) + CountMatched(b)
  {
    if a == [] {
      assert a + b == b;
    } else {
      assert (a + b)[1..] == a[1..] + b;
      MatchedAppend(a[1..], b);
    }
  }

  /** `checkAnswers` in script.js: refuse unless every card has a checked radio; the total is the number of cards. */
  function CheckPicks(picks: seq<Pick>): (o: Outcome)
    ensures o.Refused? <==> exists i :: 0 <= i < |picks| && picks[i].selected.None?
    ensures o.Scored? ==> o.total == |picks| && o.correct <= o.total
    ensures o.Scored? ==> (o.correct == o.total <==> forall i :: 0 <= i < |picks| ==> picks[i].selected == Some(picks[i].correct))
    ensures o.Scored? ==> o.correct == CountMatched(picks)
  {
    if CountPicked(picks) < |picks| then Refused
    else Scored(CountMatched(picks), |picks|)
  }

  function AsCards(picks: seq<Pick>): (cards: seq<Card>)
    ensures |cards| == |picks|
    ensures forall i :: 0 <= i < |picks| ==> cards[i] == Choice(picks[i].correct, picks[i].selected)
  {
    if picks == [] then [] else [Choice(picks[0].correct, picks[0].selected)] + AsCards(picks[1..])
  }

  /** On multiple-choice cards the two pages grade alike. */
  lemma {:induction false} PicksAgree(picks: seq<Pick>)
    ensures CheckPicks(picks) == CheckAnswers(AsCards(picks))
  {
    CountsAgree(picks);
  }

  lemma {:induction false} CountsAgree(picks: seq<Pick>)
    ensures CountUnanswered(AsCards(picks)) == |picks| - CountPicked(picks)
    ensures CountGraded(AsCards(picks)) == |picks|
    ensures CountRight(AsCards(picks)) == CountMatched(picks)
  {
    if picks != [] {
      CountsAgree(picks[1..]);
      assert AsCards(picks)[1..] == AsCards(picks[1..]);
    }
  }

  // ---------------------------------------------------------------------------
  // One-shot grading
  // ---------------------------------------------------------------------------

  /** The page: its cards, whether grading has locked it, and the score on display. */
  datatype Page = Page(cards: seq<Card>, locked: bool, score: Option<Outcome>)

  /** What the user can do: click the check button, check a radio, or type into a text area. */
  datatype Event = Check | Select(card: nat, value: string) | Enter(card: nat, text: string)

  /**
   * One user event. A locked page ignores everything, because every input and the check
   * button are disabled. A refused check changes nothing. A successful check shows the
   * score and locks the page.
   */
  function Step(p: Page, e: Event): (q: Page)
    ensures p.locked ==> q == p
    ensures q.locked <==> p.locked || (e.Check? && CheckAnswers(p.cards).Scored?)
  {
    if p.locked then p
    else
      match e
      case Check =>
        var o := CheckAnswers(p.cards);
        if o.Refused? then p else Page(p.cards, true, Some(o))
      case Select(i, v) =>
        if i < |p.cards| && p.cards[i].Choice? then p.(cards := p.cards[i := p.cards[i].(selected := Some(v))])
        else p
      case Enter(i, t) =>
        if i < |p.cards| && p.cards[i].Written? && p.cards[i].text.Some? then p.(cards := p.cards[i := p.cards[i].(text := Some(t))])
        else p
  }

  function Run(p: Page, events: seq<Event>): (q: Page)
    decreases |events|
  {
    if events == [] then p else Run(Step(p, events[0]), events[1..])
  }

  /** The score on display, if any, is the grade of the cards as they are, and it is shown only once the page is locked. */
  ghost predicate Consistent(p: Page) {
    (p.score.Some? <==> p.locked) && (p.score.Some? ==> p.score.value == CheckAnswers(p.cards) && p.score.value.Scored?)
  }

  lemma StepConsistent(p: Page, e: Event)
    requires Consistent(p)
    ensures Consistent(Step(p, e))
  {
  }

  /** Once graded, a page never changes again, whatever the user does. */
  lemma {:induction false} GradedIsFinal(p: Page, events: seq<Event>)
    requires p.locked
    ensures Run(p, events) == p
    decreases |events|
  {
    if events != [] {
      GradedIsFinal(Step(p, events[0]), events[1..]);
    }
  }

  /** Every run from a fresh page keeps the displayed score equal to the grade of the cards. */
  lemma {:induction false} RunConsistent(p: Page, events: seq<Event>)
    requires Consistent(p)
    ensures Consistent(Run(p, events))
    decreases |events|
  {
    if events != [] {
      StepConsistent(p, events[0]);
      RunConsistent(Step(p, events[0]), events[1..]);
    }
  }

  /** A refused check leaves the page as it was. */
  lemma RefusalChangesNothing(p: Page)
    requires !p.locked && CheckAnswers(p.cards).Refused?
    ensures Step(p, Check) == p
  {
  }
}

=== FILE: loader.dfy ===
/**
 * The page load of script.js: fetch the question bank, parse it with the nine-column
 * layout, and show a random selection of at most 25 questions, or an error message.
 */
module Loader {
  import opened Wrappers
  import opened Csv
  import opened Sampler

  /**
   * The outcome of fetching the question bank: a response with `ok` set and its text, a
   * response without `ok`, or a promise rejected with an error message of the browser's
   * own (the request itself failed, or reading the body did).
   */
  datatype Response = Fetched(text: string) | NotOk | Rejected(message: string)

  const LoadFailed: string := "Failed to load CSV file. Make sure questions.csv is in the same folder or adjust CSV_PATH."
  const NoQuestions: string := "No questions found in CSV."

  /** The number of questions a page shows at most. */
  const QuizSize: nat := 25

  /** The questions the bank holds, in file order. */
  function Bank(text: string): (pool: seq<McqQuestion>)
    ensures |pool| == |Wide(DataRows(text), 9)|
  {
    McqRecords(DataRows(text), WithTopic)
  }

  /**
   * The `DOMContentLoaded` handler up to rendering. `draws` stands for the calls to
   * `Math.random` made by the shuffle, one per position of the parsed bank.
   */
  method LoadQuiz(response: Response, draws: seq<nat>) returns (r: Result<seq<McqQuestion>, string>, ghost arrangement: seq<McqQuestion>)
    requires response.Fetched? ==> ValidDraws(draws, |Bank(response.text)|)
    ensures response.NotOk? ==> r == Err(LoadFailed)
    ensures response.Rejected? ==> r == Err(response.message)
    ensures response.Fetched? && Bank(response.text) == [] ==> r == Err(NoQuestions)
    ensures response.Fetched? && Bank(response.text) != [] ==> r.Ok?
    ensures r.Err? ==> r.error == LoadFailed || r.error == NoQuestions || (response.Rejected? && r.error == response.message)
    ensures r.Ok? ==> response.Fetched? && Bank(response.text) != []
    ensures r.Ok? ==>
              var pool := Bank(response.text);
              && |r.value| == (if QuizSize < |pool| then QuizSize else |pool|)
              && |arrangement| == |pool|
              && multiset(arrangement) == multiset(pool)
              && r.value == arrangement[..|r.value|]
  {
    arrangement := [];
    var text;
    match response {
      case NotOk => return Err(LoadFailed), arrangement;
      case Rejected(message) => return Err(message), arrangement;
      case Fetched(t) => text := t;
    }
    var all := ParseTopicMcq(text);
    if |all| == 0 {
      return Err(NoQuestions), arrangement;
    }
    var size := if QuizSize < |all| then QuizSize else |all|;
    var selected;
    selected, arrangement := GetRandomQuestions(all, size, draws);
    r := Ok(selected);
  }
}

=== FILE: sampler.dfy ===
/**
 * `getRandomQuestions` of quiz.js and script.js (identical in both): a Fisher-Yates
 * shuffle of a copy of the pool followed by taking a prefix.
 *
 * `Math.floor(Math.random() * (i + 1))` is replaced by a supplied sequence of draws:
 * `draws[i]` is the index chosen when the loop variable is `i`, and it lies in `0..i`.
 */
module Sampler {

  /** Draws the shuffle of a pool of `n` elements can receive. `draws[0]` is never read. */
  predicate ValidDraws(draws: seq<nat>, n: nat) {
    |draws| == n && forall i :: 0 <= i < n ==> draws[i] <= i
  }

  /** No element occurs twice. */
  ghost predicate Distinct<T>(s: seq<T>) {
    forall i, j :: 0 <= i < j < |s| ==> s[i] != s[j]
  }

  /** `[s[i], s[j]] = [s[j], s[i]]` */
  function Swap<T>(s: seq<T>, i: nat, j: nat): (r: seq<T>)
    requires i < |s| && j < |s|
    ensures |r| == |s|
    ensures multiset(r) == multiset(s)
    ensures r[i] == s[j] && r[j] == s[i]
    ensures forall k :: 0 <= k < |s| && k != i && k != j ==> r[k] == s[k]
  {
    s[i := s[j]][j := s[i]]
  }

  /**
   * The Fisher-Yates loop: for `i` from `|pool| - 1` down to 1, swap positions `i`
   * and `draws[i]`. The result is a rearrangement of the pool; when every draw picks
   * its own position nothing moves. The first swap fixes the last position for good:
   * it ends up holding the element the last draw picked.
   */
  method Shuffle<T>(pool: seq<T>, draws: seq<nat>) returns (shuffled: seq<T>)
    requires ValidDraws(draws, |pool|)
    ensures |shuffled| == |pool|
    ensures multiset(shuffled) == multiset(pool)
    ensures (forall i :: 0 <= i < |draws| ==> draws[i] == i) ==> shuffled == pool
    ensures |pool| >= 2 ==> shuffled[|pool| - 1] == pool[draws[|pool| - 1]]
    ensures |pool| == 2 && draws[1] == 0 ==> shuffled == [pool[1], pool[0]]
  {
    shuffled := pool;
    var i := |shuffled| - 1;
    while i > 0
      invariant -1 <= i < |pool|
      invariant |pool| > 0 ==> 0 <= i
      invariant |shuffled| == |pool|
      invariant multiset(shuffled) == multiset(pool)
      invariant (forall k :: 0 <= k < |draws| ==> draws[k] == k) ==> shuffled == pool
      invariant 0 <= i ==> LastPlaced(pool, draws, shuffled, i)
      decreases i
    {
      var j := draws[i];
      LastPlacedStep(pool, draws, shuffled, i);
      shuffled := Swap(shuffled, i, j);
      i := i - 1;
    }
  }

  /**
   * What the shuffle has done once the positions above `i` are settled: nothing before
   * the first swap, and after it the last position holds the element the last draw
   * picked.
   */
  ghost predicate LastPlaced<T>(pool: seq<T>, draws: seq<nat>, s: seq<T>, i: nat) {
    |s| == |pool| && ValidDraws(draws, |pool|) && i < |pool| &&
    (i == |pool| - 1 ==> s == pool) &&
    (i < |pool| - 1 ==> s[|pool| - 1] == pool[draws[|pool| - 1]]) &&
    (|pool| == 2 && draws[1] == 0 && i == 0 ==> s == [pool[1], pool[0]])
  }

  /** One swap of the loop keeps LastPlaced, one position further down. */
  lemma LastPlacedStep<T>(pool: seq<T>, draws: seq<nat>, s: seq<T>, i: nat)
    requires ValidDraws(draws, |pool|) && 0 < i
    requires LastPlaced(pool, draws, s, i)
    ensures LastPlaced(pool, draws, Swap(s, i, draws[i]), i - 1)
  {
    var r := Swap(s, i, draws[i]);
    if |pool| == 2 && draws[1] == 0 && i == 1 {
      assert r == [pool[1], pool[0]];
    }
  }

  /**
   * `getRandomQuestions(pool, count)`: `min(count, |pool|)` elements, the prefix of a
   * rearrangement of the pool. No element appears more often than in the pool, so a
   * pool without repeats gives a selection without repeats. The pool itself is a value
   * and is left as it was.
   */
  method GetRandomQuestions<T>(pool: seq<T>, count: nat, draws: seq<nat>) returns (selected: seq<T>, ghost arrangement: seq<T>)
    requires ValidDraws(draws, |pool|)
    ensures |selected| == if count < |pool| then count else |pool|
    ensures |arrangement| == |pool| && multiset(arrangement) == multiset(pool)
    ensures selected == arrangement[..|selected|]
    ensures multiset(selected) <= multiset(pool)
    ensures Distinct(pool) ==> Distinct(selected)
  {
    var shuffled := Shuffle(pool, draws);
    arrangement := shuffled;
    var n := if count < |shuffled| then count else |shuffled|;
    selected := shuffled[..n];
    PrefixOfPermutation(shuffled, pool, n);
  }

  /** A prefix of a rearrangement takes nothing more often than the pool holds it. */
  lemma PrefixOfPermutation<T>(arrangement: seq<T>, pool: seq<T>, n: nat)
    requires multiset(arrangement) == multiset(pool) && n <= |arrangement|
    ensures multiset(arrangement[..n]) <= multiset(pool)
    ensures Distinct(pool) ==> Distinct(arrangement[..n])
  {
    assert arrangement == arrangement[..n] + arrangement[n..];
    SubMultisetDistinct(arrangement[..n], pool);
  }

  /** In a sequence without repeats every element occurs once. */
  lemma {:induction false} DistinctOccursOnce<T>(s: seq<T>, x: T)
    requires Distinct(s)
    ensures multiset(s)[x] <= 1
    decreases |s|
  {
    if s != [] {
      assert s == [s[0]] + s[1..];
      DistinctOccursOnce(s[1..], x);
      if x == s[0] {
        assert x !in s[1..];
      }
    }
  }

  /** An element at two positions occurs at least twice. */
  lemma TwoPositions<T>(s: seq<T>, i: nat, j: nat)
    requires i < j < |s| && s[i] == s[j]
    ensures multiset(s)[s[i]] >= 2
  {
    assert s == s[..i] + [s[i]] + s[i + 1..j] + [s[j]] + s[j + 1..];
  }

  /** Taking elements from a pool without repeats, never more often than the pool holds them, gives no repeats. */
  lemma SubMultisetDistinct<T>(sub: seq<T>, pool: seq<T>)
    requires multiset(sub) <= multiset(pool)
    ensures Distinct(pool) ==> Distinct(sub)
  {
    if Distinct(pool) {
      forall i, j | 0 <= i < j < |sub|
        ensures sub[i] != sub[j]
      {
        if sub[i] == sub[j] {
          TwoPositions(sub, i, j);
          DistinctOccursOnce(pool, sub[i]);
          assert false;
        }
      }
    }
  }
}

=== FILE: text.dfy ===
/**
 * Character classes and the two string primitives every other module relies on:
 * `String.prototype.trim` and `String.prototype.toLowerCase`.
 *
 * JavaScript's `trim` and the regular-expression class `\s` share one whitespace set.
 * The model restricts that set to the six ASCII whitespace characters and restricts
 * lower-casing to the ASCII letters.
 */
module Text {

  /** The whitespace class used by `trim` and by `\s`: space, and tab through carriage return (tab, line feed, vertical tab, form feed, carriage return). */
  predicate IsSpace(c: char) {
    c == ' ' || '\t' <= c <= '\r'
  }

  predicate IsUpper(c: char) {
    'A' <= c <= 'Z'
  }

  function ToLower(c: char): (r: char)
    ensures !IsUpper(r)
    ensures IsSpace(r) <==> IsSpace(c)
    ensures r == ',' <==> c == ','
    ensures IsUpper(c) ==> r as int == c as int + 32
    ensures !IsUpper(c) ==> r == c
  {
    if IsUpper(c) then (c as int + 32) as char else c
  }

  predicate NoUpper(s: string) {
    forall i :: 0 <= i < |s| ==> !IsUpper(s[i])
  }

  /** `s.toLowerCase()`, ASCII letters only. */
  function Lower(s: string): (r: string)
    ensures |r| == |s|
    ensures forall i :: 0 <= i < |s| ==> r[i] == ToLower(s[i])
  {
    seq(|s|, i requires 0 <= i < |s| => ToLower(s[i]))
  }

  /** Lower-casing leaves no capital letter, so lower-casing twice is lower-casing once. */
  lemma LowerNoUpper(s: string)
    ensures NoUpper(Lower(s))
    ensures Lower(Lower(s)) == Lower(s)
  {
    LowerFixpoint(Lower(s));
  }

  /** Lower-casing leaves a string without upper-case letters unchanged. */
  lemma LowerFixpoint(s: string)
    requires NoUpper(s)
    ensures Lower(s) == s
  {
  }

  /** The number of whitespace characters at the start of `s`. */
  function LeadingSpaces(s: string): (k: nat)
    ensures k <= |s|
    ensures forall i :: 0 <= i < k ==> IsSpace(s[i])
    ensures k == |s| || !IsSpace(s[k])
    decreases |s|
  {
    if s == [] || !IsSpace(s[0]) then 0 else 1 + LeadingSpaces(s[1..])
  }

  /** Regrouping a concatenation of three strings. */
  lemma Regroup(x: string, y: string, z: string)
    ensures x + (y + z) == x + y + z
  {
  }

  predicate AllSpace(s: string) {
    forall i :: 0 <= i < |s| ==> IsSpace(s[i])
  }

  /** A run of whitespace followed by the end or by a non-space is the leading whitespace. */
  lemma LeadingSpacesOfRun(a: string, u: string)
    requires AllSpace(a)
    requires u == [] || !IsSpace(u[0])
    ensures LeadingSpaces(a + u) == |a|
  {
    assert forall i :: 0 <= i < |a| ==> (a + u)[i] == a[i];
    assert u != [] ==> (a + u)[|a|] == u[0];
  }

  /** The leading whitespace of `a + c` is that of `a` when `a` ends in a non-space. */
  lemma LeadingSpacesConcat(a: string, c: string)
    requires a != [] && !IsSpace(a[|a| - 1])
    ensures LeadingSpaces(a + c) == LeadingSpaces(a)
    ensures LeadingSpaces(a) < |a|
    ensures (a + c)[LeadingSpaces(a)..] == a[LeadingSpaces(a)..] + c
  {
    var k := LeadingSpaces(a);
    assert a + c == a[..k] + (a[k..] + c);
    LeadingSpacesOfRun(a[..k], a[k..] + c);
  }

  /** Trimming the start of a whitespace run followed by a non-space leaves what follows. */
  lemma TrimStartOfRun(w: string, b: string)
    requires AllSpace(w)
    requires b == [] || !IsSpace(b[0])
    ensures TrimStart(w + b) == b
  {
    LeadingSpacesOfRun(w, b);
    assert (w + b)[|w|..] == b;
  }

  /** The index where the run of whitespace closing `s` begins. */
  function TrailingStart(s: string): (k: nat)
    ensures k <= |s|
    ensures forall i :: k <= i < |s| ==> IsSpace(s[i])
    ensures k == 0 || !IsSpace(s[k - 1])
    decreases |s|
  {
    if s == [] || !IsSpace(s[|s| - 1]) then |s| else TrailingStart(s[..|s| - 1])
  }

  /** `s` with its leading whitespace removed. */
  function TrimStart(s: string): (r: string)
    ensures |r| <= |s|
    ensures r == [] || !IsSpace(r[0])
    ensures r == s[|s| - |r|..]
    ensures forall i :: 0 <= i < |s| - |r| ==> IsSpace(s[i])
  {
    s[LeadingSpaces(s)..]
  }

  /** `s.trim()`: the infix of `s` between its leading and trailing whitespace. */
  function Trim(s: string): (r: string)
    ensures |r| <= |s|
    ensures r == [] <==> forall i :: 0 <= i < |s| ==> IsSpace(s[i])
    ensures r != [] ==> !IsSpace(r[0]) && !IsSpace(r[|r| - 1])
    ensures (s == [] || (!IsSpace(s[0]) && !IsSpace(s[|s| - 1]))) ==> r == s
  {
    var t := TrimStart(s);
    t[..TrailingStart(t)]
  }

  /**
   * Where the trimmed text sits in `s`: it starts where the leading whitespace ends, and
   * only whitespace follows it.
   */
  lemma TrimInfix(s: string)
    ensures LeadingSpaces(s) + |Trim(s)| <= |s|
    ensures Trim(s) == s[LeadingSpaces(s)..][..|Trim(s)|]
    ensures AllSpace(s[LeadingSpaces(s)..][|Trim(s)|..])
  {
  }

  /** Trimming takes away exactly the whitespace written around a text with no edge whitespace. */
  lemma TrimAround(a: string, t: string, b: string)
    requires AllSpace(a) && AllSpace(b)
    requires t == [] || (!IsSpace(t[0]) && !IsSpace(t[|t| - 1]))
    ensures Trim(a + t + b) == t
  {
    if t == [] {
      var s := a + t + b;
      assert s == a + b;
      assert forall i :: 0 <= i < |s| ==> IsSpace(s[i]);
    } else {
      TrimAroundText(a, t, b);
    }
  }

  lemma TrimAroundText(a: string, t: string, b: string)
    requires AllSpace(a) && AllSpace(b)
    requires t != [] && !IsSpace(t[0]) && !IsSpace(t[|t| - 1])
    ensures Trim(a + t + b) == t
  {
    var s := a + t + b;
    Regroup(a, t, b);
    LeadingSpacesOfRun(a, t + b);
    TrimInfix(s);
    var u, r := s[|a|..], Trim(s);
    assert u == t + b;
    assert u[|t| - 1] == t[|t| - 1];
    SpaceTail(u, |r|, |t| - 1);
    assert r[|r| - 1] == u[|r| - 1];
    SpaceTail(t + b, |t|, |r| - 1);
    assert u[..|t|] == t;
  }

  /** A non-space at position `p` of `u` lies before any all-whitespace tail `u[j..]`. */
  lemma SpaceTail(u: string, j: nat, p: nat)
    requires j <= |u|
    ensures AllSpace(u[j..]) && p < |u| && !IsSpace(u[p]) ==> p < j
  {
    if j <= p < |u| {
      assert u[j..][p - j] == u[p];
    }
  }

}

=== FILE: token_gate.dfy ===
/**
 * api/check-token.js: an access token is bound to the network address of its first
 * user. The key-value store is a map from `"token:" + token` to an address; a missing
 * key and an empty value both count as unbound, as every falsy value does in the source.
 */
module TokenGate {
  import opened Wrappers

  /** The `token` member of the request body: absent or falsy, present but not a string, or a string. */
  datatype TokenField = Missing | NotText | Given(value: string)

  /** The `x-forwarded-for` header: absent, one string, or several values (an array, first element kept apart). */
  datatype Forwarded = NoHeader | Header(value: string) | Headers(first: string, rest: seq<string>)

  datatype Request = Request(httpMethod: string, token: TokenField, forwarded: Forwarded, remoteAddress: Option<string>)

  /** The JSON body of a reply. */
  datatype Body =
    | Failure(error: string)
    | Granted(firstUse: bool)
    | Refused(error: string)

  /** A reply: the status, the body and the `Allow` header (empty when not set). */
  datatype Reply = Reply(status: nat, body: Body, allow: seq<string>)

  type Store = map<string, string>

  const MethodNotAllowed: string := "Method not allowed"
  const TokenRequired: string := "Token is required"
  const OtherNetwork: string := "This token is already used from another network."

  /** The text before the first comma, as `split(',')[0]` gives it. */
  function FirstSegment(s: string): (r: string)
    ensures ',' !in r
    ensures |r| <= |s| && r == s[..|r|]
    ensures |r| == |s| || s[|r|] == ','
  {
    if s == [] || s[0] == ',' then [] else [s[0]] + FirstSegment(s[1..])
  }

  /** `req.socket?.remoteAddress || 'unknown'` */
  function Fallback(remoteAddress: Option<string>): (ip: string)
    ensures ip != []
    ensures remoteAddress.Some? && remoteAddress.value != [] ==> ip == remoteAddress.value
    ensures !(remoteAddress.Some? && remoteAddress.value != []) ==> ip == "unknown"
  {
    if remoteAddress.Some? && remoteAddress.value != [] then remoteAddress.value else "unknown"
  }

  /**
   * The client address: the first element of an array header; otherwise the first
   * comma-separated segment of the header if that is not empty, else the socket's
   * remote address if that is not empty, else "unknown".
   */
  function ClientIp(forwarded: Forwarded, remoteAddress: Option<string>): (ip: string)
    ensures forwarded.Headers? ==> ip == forwarded.first
    ensures !forwarded.Headers? ==> ip != []
    ensures forwarded.Header? && forwarded.value != [] && forwarded.value[0] != ',' ==>
              ip <= forwarded.value && ',' !in ip && (|ip| == |forwarded.value| || forwarded.value[|ip|] == ',')
    ensures forwarded.Header? && forwarded.value != [] && forwarded.value[0] == ',' ==> ip == Fallback(remoteAddress)
    ensures forwarded.Header? && FirstSegment(forwarded.value) != [] ==> ip == FirstSegment(forwarded.value)
    ensures forwarded.NoHeader? || (forwarded.Header? && FirstSegment(forwarded.value) == []) ==> ip == Fallback(remoteAddress)
  {
    match forwarded
    case Headers(first, _) => first
    case Header(v) => if FirstSegment(v) != [] then FirstSegment(v) else Fallback(remoteAddress)
    case NoHeader => Fallback(remoteAddress)
  }

  /** The first segment of a list written as `first,rest` with a comma-free `first` is `first`. */
  lemma {:induction false} FirstSegmentOfList(first: string, rest: string)
    requires ',' !in first
    ensures FirstSegment(first + "," + rest) == first
    ensures FirstSegment(first) == first
    decreases |first|
  {
    if first == [] {
      assert (first + "," + rest)[0] == ',';
    } else {
      assert (first + "," + rest)[1..] == first[1..] + "," + rest;
      assert first[0] in first;
      FirstSegmentOfList(first[1..], rest);
    }
  }

  /**
   * A proxy list `first, rest` or a single address `first`: the client is the first
   * hop, or the fallback when that hop is empty.
   */
  lemma ClientIpFirstHop(first: string, rest: string, remoteAddress: Option<string>)
    requires ',' !in first
    ensures ClientIp(Header(first + "," + rest), remoteAddress) == if first == [] then Fallback(remoteAddress) else first
    ensures ClientIp(Header(first), remoteAddress) == if first == [] then Fallback(remoteAddress) else first
  {
    FirstSegmentOfList(first, rest);
  }

  function KeyOf(token: string): string {
    "token:" + token
  }

  /** The key holds an address: the source's `existingIp` is truthy. */
  predicate Bound(store: Store, key: string) {
    key in store && store[key] != []
  }

  /** A valid request: a POST with a nonempty string token. */
  predicate Valid(req: Request) {
    req.httpMethod == "POST" && req.token.Given? && req.token.value != []
  }

  /** The handler as a step on the store: the reply, and the store after the request. */
  function Handle(req: Request, store: Store): (out: (Reply, Store))
    ensures req.httpMethod != "POST" ==> out == (Reply(405, Failure(MethodNotAllowed), ["POST"]), store)
    ensures req.httpMethod == "POST" && !(req.token.Given? && req.token.value != []) ==> out == (Reply(400, Failure(TokenRequired), []), store)
    ensures out.0.status in {200, 400, 403, 405}
    ensures out.1 == store || (out.0 == Reply(200, Granted(true), []) && out.1 == store[KeyOf(req.token.value) := ClientIp(req.forwarded, req.remoteAddress)])
    ensures out.0.body == Granted(true) <==> Valid(req) && !Bound(store, KeyOf(req.token.value))
    ensures out.0.status == 403 <==> Valid(req) && Bound(store, KeyOf(req.token.value)) && store[KeyOf(req.token.value)] != ClientIp(req.forwarded, req.remoteAddress)
    ensures Valid(req) && !Bound(store, KeyOf(req.token.value)) ==>
              out.1 == store[KeyOf(req.token.value) := ClientIp(req.forwarded, req.remoteAddress)]
    ensures Valid(req) && !req.forwarded.Headers? ==> Bound(out.1, KeyOf(req.token.value))
  {
    if req.httpMethod != "POST" then (Reply(405, Failure(MethodNotAllowed), ["POST"]), store)
    else if !req.token.Given? || req.token.value == [] then (Reply(400, Failure(TokenRequired), []), store)
    else
      var ip := ClientIp(req.forwarded, req.remoteAddress);
      var key := KeyOf(req.token.value);
      if !Bound(store, key) then (Reply(200, Granted(true), []), store[key := ip])
      else if store[key] != ip then (Reply(403, Refused(OtherNetwork), []), store)
      else (Reply(200, Granted(false), []), store)
  }

  /** Requests handled one after another over one store: one reply per request. */
  function Run(store: Store, reqs: seq<Request>): (out: (seq<Reply>, Store))
    ensures |out.0| == |reqs|
    decreases |reqs|
  {
    if reqs == [] then ([], store)
    else
      var (reply, next) := Handle(reqs[0], store);
      var (replies, last) := Run(next, reqs[1..]);
      ([reply] + replies, last)
  }

  /**
   * In a run, the i-th reply is 405 exactly for a non-POST request and 400 exactly for a
   * POST without a usable token, whatever the earlier requests did to the store; every
   * status is one of four.
   */
  lemma {:induction false} RunStatuses(store: Store, reqs: seq<Request>, i: nat)
    requires i < |reqs|
    ensures var status := Run(store, reqs).0[i].status;
            && status in {200, 400, 403, 405}
            && (status == 405 <==> reqs[i].httpMethod != "POST")
            && (status == 400 <==> reqs[i].httpMethod == "POST" && !Valid(reqs[i]))
    decreases i
  {
    if i > 0 {
      RunStatuses(Handle(reqs[0], store).1, reqs[1..], i - 1);
    }
  }

  /** Write-once: a key that holds an address keeps exactly that address through any run of requests. */
  lemma {:induction false} WriteOnce(store: Store, reqs: seq<Request>, key: string)
    requires Bound(store, key)
    ensures key in Run(store, reqs).1 && Run(store, reqs).1[key] == store[key]
    decreases |reqs|
  {
    if reqs != [] {
      var next := Handle(reqs[0], store).1;
      assert key in next && next[key] == store[key];
      WriteOnce(next, reqs[1..], key);
    }
  }

  /**
   * The first user wins: once a token is bound to an address, every later valid request
   * with that token from another address is refused with 403, and one from the same
   * address is let through without binding anything.
   */
  lemma {:induction false} FirstUserWins(store: Store, reqs: seq<Request>, token: string, i: nat)
    requires Bound(store, KeyOf(token))
    requires i < |reqs| && Valid(reqs[i]) && reqs[i].token.value == token
    ensures var ip := ClientIp(reqs[i].forwarded, reqs[i].remoteAddress);
            Run(store, reqs).0[i] == (if ip == store[KeyOf(token)] then Reply(200, Granted(false), []) else Reply(403, Refused(OtherNetwork), []))
    decreases i
  {
    var next := Handle(reqs[0], store).1;
    if i > 0 {
      WriteOnce(store, [reqs[0]], KeyOf(token));
      assert Run(store, [reqs[0]]).1 == next;
      FirstUserWins(next, reqs[1..], token, i - 1);
    }
  }

  /**
   * An address that is empty does not hold a token: an array header whose first element
   * is empty binds a free token to "", and the next user of the token binds it again.
   */
  lemma EmptyBindingIsRebound(store: Store, req: Request, rest: seq<string>, next: Request)
    requires Valid(req) && req.forwarded == Headers("", rest) && !Bound(store, KeyOf(req.token.value))
    requires Valid(next) && next.token == req.token
    ensures var after := Handle(req, store).1;
            Handle(next, after) == (Reply(200, Granted(true), []), after[KeyOf(req.token.value) := ClientIp(next.forwarded, next.remoteAddress)])
  {
    var key := KeyOf(req.token.value);
    assert ClientIp(req.forwarded, req.remoteAddress) == "";
    assert Handle(req, store).1 == store[key := ""];
    assert !Bound(store[key := ""], key);
  }
}

=== FILE: wrappers.dfy ===
/** Small failure-carrying datatypes shared by the other modules. */
module Wrappers {

  /** A value that may be missing: JavaScript's `undefined`/`null` where the source tests for it. */
  datatype Option<+T> = None | Some(value: T)

  /** The outcome of a step that either yields a value or reports an error message. */
  datatype Result<+T, +E> = Ok(value: T) | Err(error: E)
}
